=== FILE: README.md ===
# Markdown parser core, modelled in Dafny

This project models the core of the Drupal `markdown` module. It covers four pieces:

- **The base parser.** This is the render strategy with its allowed-HTML getters, the `render_strategy` section of the parser configuration, the hook context built from the parser/filter/format chain, and the `parse` pipeline. The pipeline runs optional input escaping or stripping, then the markdown alter hook, the backend conversion, the HTML alter hook, and optional output filtering.
- **The extensible parser.** This covers:
  - which extensions `getConfiguration` persists, namely those enabled or required by an enabled dependent;
  - how extension guidelines are merged and altered;
  - the lazily built extension collection;
  - the keyed overwrite of an extension's configuration.
- **The "Enhanced Links" renderer.** It sets `href`, `target="_blank"`, `rel="nofollow"` and an escaped `title` on links. Whether a link is external is decided against a whitelist of internal hosts.
- **The trusted-callback gate.** It classifies a callback, decides whether it is trusted, and applies the error policy to untrusted callbacks.

Modules:

| file | module | contents |
|---|---|---|
| `wrappers.dfy` | `Wrappers` | `Option` and `Result` |
| `php_values.dfy` | `PhpValues` | PHP values and their truthiness: `""` and `"0"` are falsy strings |
| `strings.dfy` | `Strings` | first occurrence of a pattern, as `strpos` finds it |
| `sequences.dfy` | `Sequences` | order-preserving selection, like a `foreach` with `continue` |
| `html_escape.dfy` | `HtmlEscape` | `Html::escape` as entity replacement, and its decoding |
| `base_parser.dfy` | `BaseParser` | `BaseParser.php` |
| `extensible_parser.dfy` | `ExtensibleParser` | `ExtensibleMarkdownParserBase.php` |
| `link_renderer.dfy` | `LinkRenderer` | `LinkRenderer.php` |
| `trusted_callback.dfy` | `TrustedCallback` | `DoTrustedCallbackTrait.php` |

The model does not compute the collaborators of `parse`. It takes them as function parameters:

- the Markdown backend (`convertToHtml`);
- the two module alter hooks;
- `strip_tags`;
- the FilterHtml sanitizer.

The model fixes which stages run, in what order, and on which input. It also fixes what the returned value wraps. `parse` returns a trace of the stages it ran, each with its kind, input and output. The contracts are stated over that trace.

These rules of the code are followed throughout:

- **Render strategy.** A configured render strategy that is missing, or that PHP treats as false (`""` or `"0"`), reads as FILTER_OUTPUT. Any other value is returned verbatim. A value that is none of the four constants is `Unrecognized`. `GetRenderStrategy` maps an `Unrecognized` value with a falsy name to FILTER_OUTPUT, so the strategy it returns always has a non-falsy name. `parse` compares the strategy with `===`, so an unrecognized value neither pre-processes nor filters.
- **Requirements.** An extension is kept when it is enabled, or when one of the ids in its own `requiredBy` list is enabled. This is one level only: `ExtensibleParser.RequirementIsNotTransitive` shows a chain A ← B ← C with only A enabled, where B is kept and C is not.
- **Extension lookups.** A dependent id that the extension collection does not hold makes the collection's `get` throw. The model returns `Failure(UnknownExtension(id))` instead.
- **Guideline groups.** The base guidelines are an opaque map of guide groups. Extensions only add to the `extensions` group.
- **Host lookup.** `parse_url(..., PHP_URL_HOST)` is a parameter (`Environment.hostOf`), and so is the site's base URL. When the base URL has no host, `$hosts` gains a NULL entry, which never equals a link's host. The model therefore leaves it out.
- **Object graph.** The objects `getContext` reaches are a heap from ids to objects. They are looked up as `$this` sees them (`BaseParser.View`): a reference to the parser's own id is the parser itself, whatever the heap holds under that id.
- **Callbacks.** Class relationships (`is_subclass_of`) and each class's `trustedCallbacks()` list are declared in a registry. The callback's own result is a parameter (`invoke`).

## Where the code and its doc comments differ

The model follows the code.

- The doc comment of `doTrustedCallback` lists TRIGGER_DEPRECATION as an error type, but the code has no branch for it. An untrusted callback under it raises like THROW_EXCEPTION (`TrustedCallback.DeprecationTypeThrows`).
- The comments in `alterGuidelines` and `getGuidelines` (ExtensibleMarkdownParserBase.php:28 and :87) speak of "enabled extensions", but neither loop tests whether an extension is enabled. Every extension of the collection with the capability takes part. `ExtensibleParser.AlterGuidelines` and `ExtensibleParser.GetGuidelines` follow the code and look only at the capability.

## Model

| member | source | states |
|---|---|---|
| BaseParser.GetRenderStrategy | src/Plugin/Markdown/BaseParser.php:367-369 | a missing strategy, or one PHP treats as false (an unrecognized `""` or `"0"`), reads as FILTER_OUTPUT; any other configured one is returned as it is, so an unrecognized result never has a falsy name |
| BaseParser.GetAllowedHtml | src/Plugin/Markdown/BaseParser.php:71-73 | the configured allowed HTML unless it is missing or falsy, else the built-in default; with a non-falsy default the result is never falsy |
| BaseParser.GetAllowedHtmlPlugins | src/Plugin/Markdown/BaseParser.php:78-80 | the configured plugin list, or the empty list when none is configured |
| BaseParser.GetConfiguration | src/Plugin/Markdown/BaseParser.php:99-109 | the inherited keys are untouched; `render_strategy` always names the strategy and carries allowed HTML and plugins exactly when the strategy is FILTER_OUTPUT |
| BaseParser.ConfigurationRoundTrip | src/Plugin/Markdown/BaseParser.php:99-109 | reading the written section back yields the same strategy, and under FILTER_OUTPUT the same allowed HTML and plugin list |
| BaseParser.GetContext | src/Plugin/Markdown/BaseParser.php:120-159 | the context has exactly the caller's keys plus `parser`, `filter` and `format`; the computed entries win over caller keys of the same name, and every other caller entry passes through. Objects are looked up with the parser itself under its own id |
| BaseParser.PlainParserContext | src/Plugin/Markdown/BaseParser.php:122-149 | for a filter-aware parser the context names the parser itself and its filter, and takes the format from a format-aware filter |
| BaseParser.Parse | src/Plugin/Markdown/BaseParser.php:374-402 | the stages run in the order pre-processing (per strategy), markdown hook, conversion, HTML hook, filter (per strategy). Each stage is fed the previous one's output and computes its own collaborator. The result's HTML is the last output. The converted markdown is what the result holds. The HTML hook receives the context the markdown hook left behind, with its edits, plus that converted markdown under `markdown` |
| BaseParser.FilterRunsIffFilterOutput | src/Plugin/Markdown/BaseParser.php:397-399 | the output filter runs if and only if the strategy is FILTER_OUTPUT |
| BaseParser.UnfilteredHtmlIsHookOutput | src/Plugin/Markdown/BaseParser.php:390-401 | under any other strategy the returned HTML is the HTML hook's output |
| BaseParser.FilteredHtmlIsSanitizerOutput | src/Plugin/Markdown/BaseParser.php:394-399 | under FILTER_OUTPUT the returned HTML is the sanitizer's output for the HTML hook's output, with the language code |
| BaseParser.PreprocessingBeforeHook | src/Plugin/Markdown/BaseParser.php:377-390 | escaping or stripping happens before the markdown hook and conversion, and the hook receives the pre-processed markdown |
| BaseParser.EscapedInputHasNoAngleBrackets | src/Plugin/Markdown/BaseParser.php:378-387 | under ESCAPE_INPUT the markdown handed to the hook contains no `<` or `>` |
| BaseParser.UnrecognizedStrategyIsUnfiltered | src/Plugin/Markdown/BaseParser.php:377-399 | a non-falsy strategy value that is none of the four constants runs neither pre-processing nor the filter |
| BaseParser.FalsyStrategyIsFiltered | src/Plugin/Markdown/BaseParser.php:367-399 | a configured strategy of `""` or `"0"` falls back to FILTER_OUTPUT, so the output filter runs |
| BaseParser.ParsedWrapsProcessedMarkdown | src/Plugin/Markdown/BaseParser.php:378-401 | with pass-through hooks, ESCAPE_INPUT on `<b>` returns a value wrapping `&lt;b&gt;`, not `<b>` |
| HtmlEscape.Escape | src/Plugin/Markdown/BaseParser.php:379 | escaped text contains none of `< > " '` and is never shorter |
| HtmlEscape.EscapeRoundTrip | src/Plugin/Markdown/BaseParser.php:379 | decoding the entities of escaped text gives the original text back |
| ExtensibleParser.RequiredByEnabled | src/Plugin/Markdown/ExtensibleMarkdownParserBase.php:55-63 | the dependent scan answers true exactly when some listed dependent is enabled. It succeeds whenever every dependent is known. It fails exactly when an id the collection does not hold comes before every enabled dependent, and the error names the first such id in the list |
| ExtensibleParser.RaisesAtUnique | src/Plugin/Markdown/ExtensibleMarkdownParserBase.php:56-62 | the scan can raise at one position only, the first unknown id, so the failing id is determined |
| ExtensibleParser.Included | src/Plugin/Markdown/ExtensibleMarkdownParserBase.php:54-68 | an extension is kept exactly when it is enabled or a listed dependent is enabled. The decision fails exactly when the dependent scan does, so an unknown dependent reached by the scan raises even for an enabled extension |
| ExtensibleParser.CollectConfigurations | src/Plugin/Markdown/ExtensibleMarkdownParserBase.php:50-71 | the collected list is the configurations of exactly the kept extensions, in collection order. It fails exactly when some lookup fails, with the error of the first extension in collection order whose scan raises |
| ExtensibleParser.GetConfiguration | src/Plugin/Markdown/ExtensibleMarkdownParserBase.php:46-79 | the parent configuration gains an `extensions` list of the kept configurations only when at least one extension is kept, and is otherwise returned unchanged |
| ExtensibleParser.PersistedIffEnabledOrRequired | src/Plugin/Markdown/ExtensibleMarkdownParserBase.php:53-71 | an extension is among the persisted ones if and only if it is enabled or directly required by an enabled dependent |
| ExtensibleParser.RequirementIsNotTransitive | src/Plugin/Markdown/ExtensibleMarkdownParserBase.php:54-68 | with A enabled, B required by A and C required by B, B is kept and C is not |
| ExtensibleParser.EnablingIsMonotonic | src/Plugin/Markdown/ExtensibleMarkdownParserBase.php:54-68 | enabling one more extension never drops a kept extension |
| ExtensibleParser.Contributions | src/Plugin/Markdown/ExtensibleMarkdownParserBase.php:88-92 | exactly the extensions with the guidelines capability and a non-empty element contribute, each under its own id |
| ExtensibleParser.GetGuidelines | src/Plugin/Markdown/ExtensibleMarkdownParserBase.php:84-95 | base guide groups other than `extensions` are kept. With no contributor the guides are unchanged. Otherwise the `extensions` group holds exactly the entries it already had and the contributors' ids. Each contributor's element is under its id, and the earlier entries of other ids are kept unchanged |
| ExtensibleParser.AlterGuidelines | src/Plugin/Markdown/ExtensibleMarkdownParserBase.php:27-34 | the alter hooks invoked are exactly those of the extensions with the alter capability, in collection order. The guides returned are the guides rewritten by each of them in turn, first to last; without any the guides are unchanged |
| ExtensibleParser.OnlyAlteringExtensionsMatter | src/Plugin/Markdown/ExtensibleMarkdownParserBase.php:29-33 | altering with the whole collection equals altering with only its alter-capable extensions |
| ExtensibleParser.Extensions | src/Plugin/Markdown/ExtensibleMarkdownParserBase.php:108-113 | the first call builds the collection from the recorded configurations and stores it; later calls return the stored one |
| ExtensibleParser.ExtensionsBuiltOnce | src/Plugin/Markdown/ExtensibleMarkdownParserBase.php:108-113 | calling `extensions()` twice returns the same collection and leaves the state as the first call left it |
| ExtensibleParser.GetExtension | src/Plugin/Markdown/ExtensibleMarkdownParserBase.php:100-102 | looking up an id succeeds exactly when the collection holds it, with an extension of that id, and otherwise fails with that id |
| ExtensibleParser.SetExtensionConfig | src/Plugin/Markdown/ExtensibleMarkdownParserBase.php:132-138 | only the given id's recorded configuration changes. The collection is updated only if it is already built, and only on the entries with that id |
| ExtensibleParser.SetThenGet | src/Plugin/Markdown/ExtensibleMarkdownParserBase.php:132-138 | after setting an extension's configuration on a built collection, looking it up returns the new configuration |
| LinkRenderer.DefaultSettings | src/Plugin/Markdown/CommonMark/Extension/LinkRenderer.php:34-40 | new windows on, `no_follow` is `external`, and the whitelist reads back as the single request host |
| LinkRenderer.SplitLines | src/Plugin/Markdown/CommonMark/Extension/LinkRenderer.php:170 | every whitelist line is non-empty and contains no line feed |
| LinkRenderer.WhitelistLinesRoundTrip | src/Plugin/Markdown/CommonMark/Extension/LinkRenderer.php:170 | host names typed one per line, with `\n` or `\r\n` separators, are read back exactly |
| LinkRenderer.Whitelist | src/Plugin/Markdown/CommonMark/Extension/LinkRenderer.php:170-177 | the internal hosts are the whitelist lines plus the base host, and nothing else |
| LinkRenderer.IsExternalUrl | src/Plugin/Markdown/CommonMark/Extension/LinkRenderer.php:156-190 | a URL without a host or with an empty host is internal. Otherwise it is external exactly when its host is neither a whitelist line nor the base URL's host |
| LinkRenderer.BaseHostAlwaysInternal | src/Plugin/Markdown/CommonMark/Extension/LinkRenderer.php:172-177 | links to the site's own host are never external |
| LinkRenderer.ListedHostIsInternal | src/Plugin/Markdown/CommonMark/Extension/LinkRenderer.php:170-189 | a host listed in the whitelist setting is internal |
| LinkRenderer.WhitelistAsWritten | src/Plugin/Markdown/CommonMark/Extension/LinkRenderer.php:174-177 | the whitelist as the code builds it keeps every line and adds the base host when no line loosely equals it; it holds nothing else |
| LinkRenderer.IsExternalUrlAsWritten | src/Plugin/Markdown/CommonMark/Extension/LinkRenderer.php:156-190 | as written, a URL without a host or with an empty host is internal. Otherwise it is external exactly when its host is not a whitelist line, and it is not the case that it is the base URL's host while no line loosely equals it |
| LinkRenderer.BaseHostExternalAsWritten | src/Plugin/Markdown/CommonMark/Extension/LinkRenderer.php:174-176 | with the whitelist `010` and the base host `10`, the code as written treats the site's own host as external, and the corrected whitelist does not |
| LinkRenderer.Render | src/Plugin/Markdown/CommonMark/Extension/LinkRenderer.php:117-145 | a non-link raises InvalidArgument naming its class. It decides "external" with the corrected whitelist. For a link, `href` is the URL. `target` is `_blank` exactly when new windows are on and the link is external; `rel` is `nofollow` exactly under the no-follow rule; otherwise each keeps its old value. A present title is set to its escaped form. Every other attribute is kept, and the children are rendered as the contents |
| LinkRenderer.RenderAsWritten | src/Plugin/Markdown/CommonMark/Extension/LinkRenderer.php:117-145 | the same element as `Render` describes, with "external" decided over the whitelist as the code builds it |
| LinkRenderer.SiteLinkMarkedExternalAsWritten | src/Plugin/Markdown/CommonMark/Extension/LinkRenderer.php:130-138 | with the whitelist `010`, base host `10` and new windows on, the code as written gives a link to `10` `target="_blank"` and `rel="nofollow"`, and the corrected rendering adds neither |
| LinkRenderer.RenderedTitleRoundTrip | src/Plugin/Markdown/CommonMark/Extension/LinkRenderer.php:139-141 | the rendered title holds no `<`, `>` or quote, and decoding its entities gives the link's title back |
| LinkRenderer.DefaultsMarkExternalLinks | src/Plugin/Markdown/CommonMark/Extension/LinkRenderer.php:130-138 | with the default settings an external link gets `target="_blank"` and `rel="nofollow"` |
| LinkRenderer.DefaultsLeaveRequestHostLinks | src/Plugin/Markdown/CommonMark/Extension/LinkRenderer.php:130-138 | with the default settings a link to the request host gains neither `target` nor `rel` |
| LinkRenderer.EmptyNoFollowNeverAddsRel | src/Plugin/Markdown/CommonMark/Extension/LinkRenderer.php:135-138 | an empty `no_follow` never adds `rel` |
| TrustedCallback.Resolve | src/BcSupport/DoTrustedCallbackTrait.php:58-63 | an array callback is its target and method. A string is split at its first `::` into a class name and a method, and has no method exactly when it contains no `::`. Closures and invokable objects have no method |
| TrustedCallback.ResolveSplitsAtFirstSeparator | src/BcSupport/DoTrustedCallbackTrait.php:61-62 | `Class::method` resolves back to that class and method when the class name has no colon |
| TrustedCallback.IsTrusted | src/BcSupport/DoTrustedCallbackTrait.php:65-81 | a closure is trusted and an invokable object is not. A method callback is trusted exactly when its target subclasses a given extra interface, or implements the trusted-callback interface and lists the method |
| TrustedCallback.StringAndArrayAgree | src/BcSupport/DoTrustedCallbackTrait.php:58-77 | a `Class::method` string and the class-name array callback get the same verdict |
| TrustedCallback.ExtraInterfaceTrustsAnyMethod | src/BcSupport/DoTrustedCallbackTrait.php:66-68 | a subclass of the extra interface is trusted for every method, listed or not |
| TrustedCallback.UnlistedMethodIsUntrusted | src/BcSupport/DoTrustedCallbackTrait.php:69-77 | without an extra interface, a method missing from the trusted list is untrusted |
| TrustedCallback.Description | src/BcSupport/DoTrustedCallbackTrait.php:84-90 | the description is the target's class (an object's own class) followed by `::method` when a method was resolved, or the plain string |
| TrustedCallback.Substitute | src/BcSupport/DoTrustedCallbackTrait.php:91 | a message without `%s` is unchanged |
| TrustedCallback.SubstituteFillsPlaceholder | src/BcSupport/DoTrustedCallbackTrait.php:91 | a message with one `%s` gets the description in its place |
| TrustedCallback.DoTrustedCallback | src/BcSupport/DoTrustedCallbackTrait.php:54-104 | a trusted callback is invoked with no notice. An untrusted one is invoked after a silenced deprecation or a warning under those two error types, and under any other type raises with the substituted message and is not invoked |
| TrustedCallback.SilentInvocationIffTrusted | src/BcSupport/DoTrustedCallbackTrait.php:83-103 | the callback runs without a notice if and only if it is trusted |
| TrustedCallback.ClosureAlwaysInvoked | src/BcSupport/DoTrustedCallbackTrait.php:79-81 | a closure runs under every error type and its result is returned |
| TrustedCallback.ThrowNeverInvokesUntrusted | src/BcSupport/DoTrustedCallbackTrait.php:97-100 | under THROW_EXCEPTION an untrusted callback is never invoked |
| TrustedCallback.DeprecationTypeThrows | src/BcSupport/DoTrustedCallbackTrait.php:92-100 | under TRIGGER_DEPRECATION an untrusted callback is treated exactly as under THROW_EXCEPTION |

## Findings

| source | as written | input that shows it | evidently intended | confidence | as-written member | corrected member |
|---|---|---|---|---|---|---|
| src/Plugin/Markdown/CommonMark/Extension/LinkRenderer.php:174 | the base host is added to the whitelist only if a loose (non-strict) `array_search` does not find it, but hosts are later matched with `===` | whitelist setting `010`, base URL host `10`, link to host `10` | the site's own host is always internal, as the comment at line 172 says | not executed | LinkRenderer.BaseHostExternalAsWritten | LinkRenderer.BaseHostAlwaysInternal |

`LinkRenderer.WhitelistAsWritten`, `LinkRenderer.IsExternalUrlAsWritten` and `LinkRenderer.RenderAsWritten` model the code as written. `LinkRenderer.SiteLinkMarkedExternalAsWritten` shows what the discrepancy does to a rendered link. `LinkRenderer.Whitelist` uses a strict presence test. `IsExternalUrl` and `Render` use it too.

## Left out

- Form building and settings UI: `buildConfigurationForm`, the disabled-setting descriptions, and the no-op submit and validate handlers. They are presentation only.
- The content of the base parser's guidelines. It is static translated documentation, so the base guides are an opaque map.
- The Markdown backend, the module hook bus, `strip_tags` and the FilterHtml sanitizer. They are uninterpreted function parameters.
- The built-in `FilterHtml::ALLOWED_HTML` default. It is a parameter, because FilterHtml is not part of this model.
- The string values of the RenderStrategyInterface and TrustedCallbackInterface constants. These interfaces are not part of this model, so the strategies and error types are datatype constructors.
- The extension plugin collection's construction and container wiring (`MarkdownExtensionPluginCollection::create`). The collection is given as a factory function.
- The function-local `static $hosts` cache in `isExternalUrl`. It memoises the whitelist for the whole process. The model recomputes the whitelist from the current settings on every call.
- Mutable objects: the methods return `$this` and alter hooks take arguments by reference. The model returns new values instead.
- Ordering of PHP array keys for the guideline and context maps. These are Dafny maps, which have no order.
- SmartPunctuation and Strikethrough extensions, and the interface files. They carry no logic of this core.
- LinkRenderer.LooseEquals: models PHP's loose string comparison only for two strings of decimal digits. Two digit strings are equal as numbers when their common value is at most PHP_INT_MAX (64-bit). When both exceed it they are compared as strings, and the model does the same. The model does not cover the case where exactly one of them exceeds PHP_INT_MAX. PHP then compares the two as doubles, so values within rounding of 2^63 can be equal there; the model calls them unequal. Other numeric strings (`1e1`, `1.0`, leading blanks) are also loosely equal in PHP but are not modelled. The finding needs only the small digit case.
- TrustedCallback.Substitute: replaces only the first `%s`. Other `sprintf` directives, such as `%%` or a second `%s`, are not modelled.
- ExtensibleParser.SetExtensionConfig: the collection class is not part of this model. Its `setInstanceConfiguration` is modelled as replacing only the `configuration` field of the entries with that id. Their enabled flag and `requiredBy` list stay as they were, and an id the collection does not hold leaves it unchanged. A lazy plugin collection may instead rebuild the plugin from the whole configuration array, including an enabled state kept there, or throw for an unknown id.
- LinkRenderer.Render: decides "external" with the corrected, strict whitelist. On the input of the finding below it leaves out the `target` and `rel` the code adds. `LinkRenderer.RenderAsWritten` renders with the code's test.
- ExtensibleParser.GetGuidelines: treats an existing `extensions` guide group that is not a string-keyed array (`Dict`) as empty. That includes a list.
- `trigger_error` and `call_user_func_array` side effects. They are represented by the `Outcome` datatype.
- `is_subclass_of` and reflection. They are represented by a class registry.

=== FILE: base_parser.dfy ===
/**
 * The parser base class: render strategy, allowed-HTML getters, the
 * `render_strategy` configuration section, the hook context and the `parse`
 * pipeline. The Markdown backend, the two alter hooks, `strip_tags` and the
 * output filter are collaborators passed in as functions; what the model fixes
 * is which stages run, in what order, on what input, and what the result wraps.
 */
module BaseParser {
  import opened Wrappers
  import opened PhpValues
  import HtmlEscape

  /**
   * The four render strategies. `Unrecognized` is any other configured value:
   * the getter returns it verbatim and `parse` compares it with `===` against
   * the four constants, so it matches none of them.
   */
  datatype RenderStrategy =
    | FilterOutput
    | EscapeInput
    | StripInput
    | NoStrategy
    | Unrecognized(name: string)

  /**
   * The parser's stored `render_strategy.*` settings. A key that is missing or
   * holds an empty value is None.
   */
  datatype StoredRenderStrategy = StoredRenderStrategy(
    kind: Option<RenderStrategy>,
    allowedHtml: Option<string>,
    plugins: Option<seq<string>>)

  /** The `render_strategy` section `getConfiguration` writes. */
  datatype RenderStrategySection = RenderStrategySection(
    kind: RenderStrategy,
    allowedHtml: Option<string>,
    plugins: Option<seq<string>>)

  /**
   * A parser configuration array: the keys the settings trait supplies, and the
   * two keys this core writes, `render_strategy` and `extensions` (None when
   * the key is absent).
   */
  datatype ParserConfiguration = ParserConfiguration(
    settings: map<string, Value>,
    renderStrategy: Option<RenderStrategySection>,
    extensions: Option<seq<Value>>)

  /** A configured value PHP treats as false: missing, or an `Unrecognized` name that is "" or "0". */
  predicate FalsyStrategy(kind: Option<RenderStrategy>) {
    kind.None? || (kind.value.Unrecognized? && FalsyString(kind.value.name))
  }

  /** The configured strategy; a falsy or missing one means FILTER_OUTPUT. */
  function GetRenderStrategy(stored: StoredRenderStrategy): (r: RenderStrategy)
    ensures FalsyStrategy(stored.kind) ==> r == FilterOutput
    ensures !FalsyStrategy(stored.kind) ==> r == stored.kind.value
    ensures r.Unrecognized? ==> !FalsyString(r.name)
  {
    match stored.kind
    case None => FilterOutput
    case Some(kind) => if kind.Unrecognized? && FalsyString(kind.name) then FilterOutput else kind
  }

  /**
   * The configured allowed-HTML string, or the built-in default when the
   * configured one is missing or falsy (PHP's `?:`).
   */
  function GetAllowedHtml(stored: StoredRenderStrategy, builtIn: string): (r: string)
    ensures stored.allowedHtml.Some? && !FalsyString(stored.allowedHtml.value) ==> r == stored.allowedHtml.value
    ensures stored.allowedHtml.None? || FalsyString(stored.allowedHtml.value) ==> r == builtIn
    ensures !FalsyString(builtIn) ==> !FalsyString(r)
  {
    match stored.allowedHtml
    case Some(configured) => if FalsyString(configured) then builtIn else configured
    case None => builtIn
  }

  /** The configured allowed-HTML plugin ids, or the empty list. */
  function GetAllowedHtmlPlugins(stored: StoredRenderStrategy): (r: seq<string>)
    ensures stored.plugins.Some? ==> r == stored.plugins.value
    ensures stored.plugins.None? ==> r == []
  {
    stored.plugins.GetOr([])
  }

  /**
   * `getConfiguration`: the inherited configuration with its `render_strategy`
   * key replaced. The section always names the strategy; it carries the
   * allowed HTML and the plugin list exactly when the strategy is FILTER_OUTPUT.
   */
  function GetConfiguration(inherited: ParserConfiguration, stored: StoredRenderStrategy, builtInAllowedHtml: string)
    : (r: ParserConfiguration)
    ensures r.settings == inherited.settings && r.extensions == inherited.extensions
    ensures r.renderStrategy.Some?
    ensures r.renderStrategy.value.kind == GetRenderStrategy(stored)
    ensures r.renderStrategy.value.allowedHtml.Some? <==> GetRenderStrategy(stored) == FilterOutput
    ensures r.renderStrategy.value.plugins.Some? <==> GetRenderStrategy(stored) == FilterOutput
    ensures r.renderStrategy.value.allowedHtml.Some? ==>
              r.renderStrategy.value.allowedHtml.value == GetAllowedHtml(stored, builtInAllowedHtml)
    ensures r.renderStrategy.value.plugins.Some? ==>
              r.renderStrategy.value.plugins.value == GetAllowedHtmlPlugins(stored)
  {
    var strategy := GetRenderStrategy(stored);
    var section :=
      if strategy == FilterOutput
      then RenderStrategySection(strategy, Some(GetAllowedHtml(stored, builtInAllowedHtml)), Some(GetAllowedHtmlPlugins(stored)))
      else RenderStrategySection(strategy, None, None);
    inherited.(renderStrategy := Some(section))
  }

  /** The stored settings as read back from a written `render_strategy` section. */
  function ReadBack(section: RenderStrategySection): StoredRenderStrategy {
    StoredRenderStrategy(Some(section.kind), section.allowedHtml, section.plugins)
  }

  /**
   * Writing the configuration and reading it back through the same keys gives
   * the same strategy, and under FILTER_OUTPUT the same allowed HTML and plugins.
   */
  lemma ConfigurationRoundTrip(inherited: ParserConfiguration, stored: StoredRenderStrategy, builtIn: string)
    ensures var back := ReadBack(GetConfiguration(inherited, stored, builtIn).renderStrategy.value);
      && GetRenderStrategy(back) == GetRenderStrategy(stored)
      && (GetRenderStrategy(stored) == FilterOutput ==>
            GetAllowedHtml(back, builtIn) == GetAllowedHtml(stored, builtIn)
            && GetAllowedHtmlPlugins(back) == GetAllowedHtmlPlugins(stored))
  {
    var back := ReadBack(GetConfiguration(inherited, stored, builtIn).renderStrategy.value);
    if GetRenderStrategy(stored) == FilterOutput {
      var a := GetAllowedHtml(stored, builtIn);
      if FalsyString(a) {
        assert a == builtIn;
      }
    }
  }

  // ---------------------------------------------------------------------------
  // Hook context

  /** The interfaces and classes `getContext` tests with `instanceof`. */
  datatype Kind =
    | ParserAwareKind        // ParserAwareInterface
    | ParserKind             // ParserInterface
    | FilterAwareKind        // FilterAwareInterface
    | FilterKind             // FilterInterface
    | FilterFormatAwareKind  // FilterFormatAwareInterface
    | FilterFormatKind       // the FilterFormat entity class

  /**
   * An object as `getContext` sees it: what it is an instance of, and what its
   * getParser(), getFilter() and getFilterFormat() return (object ids, None for NULL).
   */
  datatype Obj = Obj(
    id: nat,
    kinds: set<Kind>,
    parser: Option<nat>,
    filter: Option<nat>,
    format: Option<nat>)

  /** The objects reachable from the parser, by id. */
  type Heap = map<nat, Obj>

  /**
   * The heap as `$this` sees it: the parser object itself under its own id,
   * whatever the heap recorded there.
   */
  function View(heap: Heap, self: Obj): (r: Heap)
    ensures self.id in r && r[self.id] == self
    ensures forall id :: id in heap && id != self.id ==> id in r && r[id] == heap[id]
    ensures r.Keys == heap.Keys + {self.id}
  {
    heap[self.id := self]
  }

  datatype Language = Language(id: string)

  /** A value in a hook context array. */
  datatype ContextValue =
    | ObjectRef(obj: Option<nat>)
    | LanguageRef(language: Option<Language>)
    | StringEntry(s: string)
    | OtherEntry(v: Value)

  type Context = map<string, ContextValue>

  /** `$x instanceof K` for a possibly NULL reference; an unknown id is an instance of nothing. */
  predicate InstanceOf(heap: Heap, ref: Option<nat>, k: Kind) {
    ref.Some? && ref.value in heap && k in heap[ref.value].kinds
  }

  /** The `parser` entry: the parser of a parser-aware object, else the object itself if it is a parser. */
  function ContextParser(self: Obj): Option<nat> {
    if ParserAwareKind in self.kinds then self.parser
    else if ParserKind in self.kinds then Some(self.id)
    else None
  }

  /** The `filter` entry, tried on the object, then on its parser, then the object itself. */
  function ContextFilter(heap: Heap, self: Obj): Option<nat> {
    var parser := ContextParser(self);
    if FilterAwareKind in self.kinds then self.filter
    else if InstanceOf(heap, parser, FilterAwareKind) then heap[parser.value].filter
    else if FilterKind in self.kinds then Some(self.id)
    else None
  }

  /** The `format` entry, tried on the object, its parser, its filter, then the object itself. */
  function ContextFormat(heap: Heap, self: Obj): Option<nat> {
    var parser := ContextParser(self);
    var filter := ContextFilter(heap, self);
    if FilterFormatAwareKind in self.kinds then self.format
    else if InstanceOf(heap, parser, FilterFormatAwareKind) then heap[parser.value].format
    else if InstanceOf(heap, filter, FilterFormatAwareKind) then heap[filter.value].format
    else if FilterFormatKind in self.kinds then Some(self.id)
    else None
  }

  const ComputedKeys: set<string> := {"parser", "filter", "format"}

  /**
   * `getContext`: the computed `parser`, `filter` and `format` entries win over
   * caller keys of the same name (PHP's left-biased array `+`); every other
   * caller key passes through unchanged. Objects are looked up in the heap
   * as `$this` sees it, so a reference to the parser's own id is the parser.
   */
  function GetContext(heap: Heap, self: Obj, caller: Context): (r: Context)
    ensures r.Keys == caller.Keys + ComputedKeys
    ensures r["parser"] == ObjectRef(ContextParser(self))
    ensures r["filter"] == ObjectRef(ContextFilter(View(heap, self), self))
    ensures r["format"] == ObjectRef(ContextFormat(View(heap, self), self))
    ensures forall k :: k in caller && k !in ComputedKeys ==> r[k] == caller[k]
  {
    var h := View(heap, self);
    caller + map[
      "parser" := ObjectRef(ContextParser(self)),
      "filter" := ObjectRef(ContextFilter(h, self)),
      "format" := ObjectRef(ContextFormat(h, self))]
  }

  /**
   * For a plain parser (a ParserInterface that is filter aware and not parser
   * aware) the context names the parser itself and its own filter, and takes
   * the format from that filter when the filter is format aware.
   */
  lemma {:induction false} PlainParserContext(heap: Heap, self: Obj, caller: Context)
    requires ParserKind in self.kinds && FilterAwareKind in self.kinds
    requires ParserAwareKind !in self.kinds && FilterFormatAwareKind !in self.kinds
    ensures var r := GetContext(heap, self, caller);
      var h := View(heap, self);
      && r["parser"] == ObjectRef(Some(self.id))
      && r["filter"] == ObjectRef(self.filter)
      && (InstanceOf(h, self.filter, FilterFormatAwareKind) ==>
            r["format"] == ObjectRef(h[self.filter.value].format))
  {
    var h := View(heap, self);
    assert ContextParser(self) == Some(self.id);
    assert !InstanceOf(h, Some(self.id), FilterFormatAwareKind);
  }

  // ---------------------------------------------------------------------------
  // The parse pipeline

  /** The value `parse` returns: the converted markdown, the final HTML and the language. */
  datatype ParsedMarkdown = ParsedMarkdown(markdown: string, html: string, language: Option<Language>)

  /** One stage of `parse`. */
  datatype StageKind =
    | EscapeStage          // Html::escape on the markdown
    | StripStage           // strip_tags on the markdown
    | MarkdownAlterHook    // hook_markdown_alter
    | Conversion           // the backend's convertToHtml
    | HtmlAlterHook        // hook_markdown_html_alter
    | OutputFilter         // the FilterHtml sanitizer

  /** A stage that ran, with the text it received and the text it produced. */
  datatype Stage = Stage(kind: StageKind, input: string, output: string)

  /** Everything observable about one `parse` call. */
  datatype ParseRun = ParseRun(stages: seq<Stage>, htmlHookContext: Context, parsed: ParsedMarkdown)

  /**
   * The collaborators `parse` delegates to. Each alter hook receives the
   * context by reference; the markdown hook's changes to it are visible to the
   * HTML hook. `filterHtml` is the sanitizer built from the parser, given the
   * HTML and the language code.
   */
  datatype Collaborators = Collaborators(
    stripTags: string -> string,
    alterMarkdown: (string, Context) -> (string, Context),
    convertToHtml: (string, Option<Language>) -> string,
    alterHtml: (string, Context) -> string,
    filterHtml: (string, Option<string>) -> string)

  /** The parser whose `parse` is modelled: the object `$this`, what it reaches, and its settings. */
  datatype Parser = Parser(self: Obj, heap: Heap, stored: StoredRenderStrategy)

  /** The language's id, or no language code when no language is given. */
  function LangCode(language: Option<Language>): Option<string> {
    match language
    case Some(l) => Some(l.id)
    case None => None
  }

  /** The context the markdown hook receives. */
  function InitialContext(p: Parser, language: Option<Language>): Context {
    GetContext(p.heap, p.self, map["language" := LanguageRef(language)])
  }

  function Kinds(stages: seq<Stage>): (r: seq<StageKind>)
    ensures |r| == |stages|
    ensures forall i :: 0 <= i < |stages| ==> r[i] == stages[i].kind
  {
    seq(|stages|, i requires 0 <= i < |stages| => stages[i].kind)
  }

  /** The input pre-processing stage a strategy selects, if any. */
  function PreprocessingKinds(strategy: RenderStrategy): seq<StageKind> {
    if strategy == EscapeInput then [EscapeStage]
    else if strategy == StripInput then [StripStage]
    else []
  }

  /** The output filtering stage a strategy selects, if any. */
  function FilteringKinds(strategy: RenderStrategy): seq<StageKind> {
    if strategy == FilterOutput then [OutputFilter] else []
  }

  /** The markdown after the pre-processing a strategy selects. */
  function Preprocessed(strategy: RenderStrategy, env: Collaborators, markdown: string): string {
    if strategy == EscapeInput then HtmlEscape.Escape(markdown)
    else if strategy == StripInput then env.stripTags(markdown)
    else markdown
  }

  /** Each stage's input is the previous stage's output. */
  ghost predicate Chained(stages: seq<Stage>) {
    forall i :: 0 < i < |stages| ==> stages[i].input == stages[i - 1].output
  }

  /** What each stage computes from its input. */
  ghost predicate Performs(st: Stage, env: Collaborators, initial: Context, htmlContext: Context, language: Option<Language>) {
    match st.kind
    case EscapeStage => st.output == HtmlEscape.Escape(st.input)
    case StripStage => st.output == env.stripTags(st.input)
    case MarkdownAlterHook => st.output == env.alterMarkdown(st.input, initial).0
    case Conversion => st.output == env.convertToHtml(st.input, language)
    case HtmlAlterHook => st.output == env.alterHtml(st.input, htmlContext)
    case OutputFilter => st.output == env.filterHtml(st.input, LangCode(language))
  }

  /** Every conversion stage of the run converted `markdown`. */
  ghost predicate Converts(stages: seq<Stage>, markdown: string) {
    forall i :: 0 <= i < |stages| && stages[i].kind == Conversion ==> stages[i].input == markdown
  }

  /** Every stage computes what its kind prescribes. */
  ghost predicate AllPerform(stages: seq<Stage>, env: Collaborators, initial: Context, htmlContext: Context, language: Option<Language>) {
    forall i :: 0 <= i < |stages| ==> Performs(stages[i], env, initial, htmlContext, language)
  }

  /** Joining two chained runs, the second fed by the first, gives a chained run. */
  lemma JoinChained(a: seq<Stage>, b: seq<Stage>)
    requires Chained(a) && Chained(b)
    requires |a| > 0 && |b| > 0 ==> b[0].input == a[|a| - 1].output
    ensures Chained(a + b)
  {
    var ab := a + b;
    forall i | 0 < i < |ab|
      ensures ab[i].input == ab[i - 1].output
    {
      if i < |a| {
        assert ab[i] == a[i] && ab[i - 1] == a[i - 1];
      } else if i == |a| {
        assert ab[i] == b[0] && ab[i - 1] == a[|a| - 1];
      } else {
        assert ab[i] == b[i - |a|] && ab[i - 1] == b[i - 1 - |a|];
      }
    }
  }

  /** Joining two runs whose stages each compute their kind's function keeps that property. */
  lemma JoinPerform(a: seq<Stage>, b: seq<Stage>, env: Collaborators, initial: Context, htmlContext: Context, language: Option<Language>)
    requires AllPerform(a, env, initial, htmlContext, language) && AllPerform(b, env, initial, htmlContext, language)
    ensures AllPerform(a + b, env, initial, htmlContext, language)
  {
    var ab := a + b;
    forall i | 0 <= i < |ab|
      ensures Performs(ab[i], env, initial, htmlContext, language)
    {
      if i < |a| {
        assert ab[i] == a[i];
      } else {
        assert ab[i] == b[i - |a|];
      }
    }
  }

  /** Joining two well-formed runs, the second fed by the first, gives a well-formed run. */
  lemma JoinStages(a: seq<Stage>, b: seq<Stage>, env: Collaborators, initial: Context, htmlContext: Context, language: Option<Language>)
    requires Chained(a) && Chained(b)
    requires |a| > 0 && |b| > 0 ==> b[0].input == a[|a| - 1].output
    requires AllPerform(a, env, initial, htmlContext, language) && AllPerform(b, env, initial, htmlContext, language)
    ensures Chained(a + b)
    ensures AllPerform(a + b, env, initial, htmlContext, language)
    ensures Kinds(a + b) == Kinds(a) + Kinds(b)
  {
    JoinChained(a, b);
    JoinPerform(a, b, env, initial, htmlContext, language);
  }

  /** The pre-processing stage the strategy selects, if any. */
  function PreprocessingStages(strategy: RenderStrategy, env: Collaborators, markdown: string, initial: Context, htmlContext: Context, language: Option<Language>)
    : (r: seq<Stage>)
    ensures Kinds(r) == PreprocessingKinds(strategy)
    ensures Chained(r) && AllPerform(r, env, initial, htmlContext, language)
    ensures |r| > 0 ==> r[0].input == markdown
    ensures (if |r| == 0 then markdown else r[|r| - 1].output) == Preprocessed(strategy, env, markdown)
  {
    if strategy == EscapeInput then [Stage(EscapeStage, markdown, HtmlEscape.Escape(markdown))]
    else if strategy == StripInput then [Stage(StripStage, markdown, env.stripTags(markdown))]
    else []
  }

  /** The output filtering stage the strategy selects, if any. */
  function FilteringStages(strategy: RenderStrategy, env: Collaborators, html: string, initial: Context, htmlContext: Context, language: Option<Language>)
    : (r: seq<Stage>)
    ensures Kinds(r) == FilteringKinds(strategy)
    ensures Chained(r) && AllPerform(r, env, initial, htmlContext, language)
    ensures |r| > 0 ==> r[0].input == html
  {
    if strategy == FilterOutput then [Stage(OutputFilter, html, env.filterHtml(html, LangCode(language)))] else []
  }

  /** The two hooks around the backend conversion; the HTML hook's context records the converted markdown. */
  function ConversionStages(env: Collaborators, input: string, initial: Context, language: Option<Language>)
    : (r: (seq<Stage>, Context))
    ensures Kinds(r.0) == [MarkdownAlterHook, Conversion, HtmlAlterHook]
    ensures Chained(r.0) && AllPerform(r.0, env, initial, r.1, language)
    ensures r.0[0].input == input
    ensures r.1 == env.alterMarkdown(input, initial).1["markdown" := StringEntry(r.0[1].input)]
  {
    var hooked := env.alterMarkdown(input, initial);
    var altered := hooked.0;
    var html := env.convertToHtml(altered, language);
    var htmlContext := hooked.1["markdown" := StringEntry(altered)];
    var stages := [
      Stage(MarkdownAlterHook, input, altered),
      Stage(Conversion, altered, html),
      Stage(HtmlAlterHook, html, env.alterHtml(html, htmlContext))];
    assert Kinds(stages) == [MarkdownAlterHook, Conversion, HtmlAlterHook];
    (stages, htmlContext)
  }

  /**
   * The three parts of `parse` joined into one run: the kinds follow in order,
   * each stage feeds the next, and the only conversion is the one in the middle.
   */
  lemma {:induction false} AssembleRun(
    strategy: RenderStrategy, pre: seq<Stage>, core: seq<Stage>, post: seq<Stage>,
    env: Collaborators, markdown: string, initial: Context, htmlContext: Context, language: Option<Language>)
    requires Kinds(pre) == PreprocessingKinds(strategy) && Kinds(post) == FilteringKinds(strategy)
    requires Kinds(core) == [MarkdownAlterHook, Conversion, HtmlAlterHook]
    requires Chained(pre) && Chained(core) && Chained(post)
    requires AllPerform(pre, env, initial, htmlContext, language)
    requires AllPerform(core, env, initial, htmlContext, language)
    requires AllPerform(post, env, initial, htmlContext, language)
    requires |pre| > 0 ==> pre[0].input == markdown
    requires core[0].input == (if |pre| == 0 then markdown else pre[|pre| - 1].output)
    requires |post| > 0 ==> post[0].input == core[2].output
    ensures var stages := pre + core + post;
      && |stages| == |pre| + 3 + |post|
      && Kinds(stages) == PreprocessingKinds(strategy) + [MarkdownAlterHook, Conversion, HtmlAlterHook] + FilteringKinds(strategy)
      && stages[0].input == markdown
      && Chained(stages)
      && AllPerform(stages, env, initial, htmlContext, language)
      && Converts(stages, core[1].input)
      && stages[|stages| - 1].output == (if |post| == 0 then core[2].output else post[|post| - 1].output)
  {
    JoinStages(pre, core, env, initial, htmlContext, language);
    JoinStages(pre + core, post, env, initial, htmlContext, language);
    var stages := pre + core + post;
    forall i | 0 <= i < |stages| && stages[i].kind == Conversion
      ensures stages[i].input == core[1].input
    {
      assert Kinds(stages)[i] == Conversion;
      assert i == |pre| + 1;
    }
  }

  /**
   * The run of `parse` under a given strategy and initial hook context: the
   * stages of every part joined, and the result built from them.
   */
  function Run(strategy: RenderStrategy, env: Collaborators, markdown: string, initial: Context, language: Option<Language>)
    : (r: ParseRun)
    ensures 3 <= |r.stages|
    ensures Kinds(r.stages) == PreprocessingKinds(strategy) + [MarkdownAlterHook, Conversion, HtmlAlterHook] + FilteringKinds(strategy)
    ensures r.stages[0].input == markdown
    ensures Chained(r.stages)
    ensures AllPerform(r.stages, env, initial, r.htmlHookContext, language)
    ensures r.parsed.html == r.stages[|r.stages| - 1].output
    ensures Converts(r.stages, r.parsed.markdown)
    ensures r.htmlHookContext == env.alterMarkdown(Preprocessed(strategy, env, markdown), initial).1["markdown" := StringEntry(r.parsed.markdown)]
    ensures r.parsed.language == language
  {
    var conversion := ConversionStages(env, Preprocessed(strategy, env, markdown), initial, language);
    var core := conversion.0;
    var htmlContext := conversion.1;
    var pre := PreprocessingStages(strategy, env, markdown, initial, htmlContext, language);
    var post := FilteringStages(strategy, env, core[2].output, initial, htmlContext, language);
    AssembleRun(strategy, pre, core, post, env, markdown, initial, htmlContext, language);
    var stages := pre + core + post;
    ParseRun(stages, htmlContext, ParsedMarkdown(core[1].input, stages[|stages| - 1].output, language))
  }

  /**
   * `parse`: optional pre-processing, the markdown hook, conversion, the HTML
   * hook and optional filtering, in that order, each fed the previous output.
   * The result wraps the markdown that was converted (after pre-processing and
   * the hook), not the caller's string. The HTML hook receives the context the
   * markdown hook left behind (with its edits), plus that same markdown.
   */
  function Parse(p: Parser, env: Collaborators, markdown: string, language: Option<Language>): (r: ParseRun)
    ensures 3 <= |r.stages|
    ensures var strategy := GetRenderStrategy(p.stored);
      Kinds(r.stages) == PreprocessingKinds(strategy) + [MarkdownAlterHook, Conversion, HtmlAlterHook] + FilteringKinds(strategy)
    ensures r.stages[0].input == markdown
    ensures Chained(r.stages)
    ensures AllPerform(r.stages, env, InitialContext(p, language), r.htmlHookContext, language)
    ensures r.parsed.html == r.stages[|r.stages| - 1].output
    ensures Converts(r.stages, r.parsed.markdown)
    ensures r.htmlHookContext
         == env.alterMarkdown(Preprocessed(GetRenderStrategy(p.stored), env, markdown), InitialContext(p, language)).1
              ["markdown" := StringEntry(r.parsed.markdown)]
    ensures r.parsed.language == language
  {
    Run(GetRenderStrategy(p.stored), env, markdown, InitialContext(p, language), language)
  }

  lemma FilterRunsIffFilterOutput(p: Parser, env: Collaborators, markdown: string, language: Option<Language>)
    ensures var r := Parse(p, env, markdown, language);
      (exists i :: 0 <= i < |r.stages| && r.stages[i].kind == OutputFilter) <==> GetRenderStrategy(p.stored) == FilterOutput
  {
    var r := Parse(p, env, markdown, language);
    var ks := Kinds(r.stages);
    if GetRenderStrategy(p.stored) == FilterOutput {
      assert r.stages[|r.stages| - 1].kind == ks[|ks| - 1] == OutputFilter;
    } else {
      assert OutputFilter !in ks;
    }
  }

  /**
   * Under any strategy but FILTER_OUTPUT the returned HTML is exactly what the
   * HTML alter hook produced from the backend's output.
   */
  lemma {:induction false} UnfilteredHtmlIsHookOutput(p: Parser, env: Collaborators, markdown: string, language: Option<Language>)
    requires GetRenderStrategy(p.stored) != FilterOutput
    ensures var r := Parse(p, env, markdown, language);
      exists i :: 0 <= i < |r.stages| && r.stages[i].kind == HtmlAlterHook && r.parsed.html == r.stages[i].output
  {
    var r := Parse(p, env, markdown, language);
    var n := |r.stages|;
    assert Kinds(r.stages)[n - 1] == HtmlAlterHook;
  }

  /**
   * Under FILTER_OUTPUT the returned HTML is the sanitizer's output for what
   * the HTML alter hook produced: nothing after the filter touches it.
   */
  lemma {:induction false} FilteredHtmlIsSanitizerOutput(p: Parser, env: Collaborators, markdown: string, language: Option<Language>)
    requires GetRenderStrategy(p.stored) == FilterOutput
    ensures var r := Parse(p, env, markdown, language);
      exists i :: 1 <= i < |r.stages| && r.stages[i - 1].kind == HtmlAlterHook && r.stages[i].kind == OutputFilter
        && r.parsed.html == env.filterHtml(r.stages[i - 1].output, LangCode(language))
  {
    var r := Parse(p, env, markdown, language);
    var n := |r.stages|;
    assert Kinds(r.stages)[n - 1] == OutputFilter && Kinds(r.stages)[n - 2] == HtmlAlterHook;
  }

  /**
   * Pre-processing is selected by the strategy and happens before the markdown
   * hook and before conversion: ESCAPE_INPUT escapes, STRIP_INPUT strips, and
   * under every other strategy the hook receives the caller's markdown.
   */
  lemma {:induction false} PreprocessingBeforeHook(p: Parser, env: Collaborators, markdown: string, language: Option<Language>)
    ensures var r := Parse(p, env, markdown, language);
      var h := |PreprocessingKinds(GetRenderStrategy(p.stored))|;
      && h + 1 < |r.stages|
      && r.stages[h].kind == MarkdownAlterHook
      && r.stages[h + 1].kind == Conversion
      && (forall j :: 0 <= j < h ==> r.stages[j].kind == EscapeStage || r.stages[j].kind == StripStage)
      && r.stages[h].input == Preprocessed(GetRenderStrategy(p.stored), env, markdown)
  {
    var r := Parse(p, env, markdown, language);
    var ks := Kinds(r.stages);
    var strategy := GetRenderStrategy(p.stored);
    if strategy == EscapeInput || strategy == StripInput {
      assert ks[0] == r.stages[0].kind && ks[1] == MarkdownAlterHook && ks[2] == Conversion;
      assert r.stages[1].input == r.stages[0].output;
      assert Performs(r.stages[0], env, InitialContext(p, language), r.htmlHookContext, language);
    } else {
      assert ks[0] == MarkdownAlterHook && ks[1] == Conversion;
    }
  }

  /**
   * Under ESCAPE_INPUT the markdown handed to the alter hook contains no `<`
   * or `>`: literal angle brackets in the source can never become markup
   * before the hook runs.
   */
  lemma {:induction false} EscapedInputHasNoAngleBrackets(p: Parser, env: Collaborators, markdown: string, language: Option<Language>)
    requires GetRenderStrategy(p.stored) == EscapeInput
    ensures var r := Parse(p, env, markdown, language);
      && r.stages[1].kind == MarkdownAlterHook
      && '<' !in r.stages[1].input && '>' !in r.stages[1].input
  {
    var r := Parse(p, env, markdown, language);
    assert Kinds(r.stages)[0] == EscapeStage && Kinds(r.stages)[1] == MarkdownAlterHook;
    assert r.stages[1].input == r.stages[0].output == HtmlEscape.Escape(markdown);
  }

  /**
   * A configured value that is none of the four strategies runs neither
   * pre-processing nor the output filter.
   */
  lemma {:induction false} UnrecognizedStrategyIsUnfiltered(p: Parser, env: Collaborators, markdown: string, language: Option<Language>)
    requires p.stored.kind.Some? && p.stored.kind.value.Unrecognized? && !FalsyString(p.stored.kind.value.name)
    ensures var r := Parse(p, env, markdown, language);
      forall i :: 0 <= i < |r.stages| ==> r.stages[i].kind !in {EscapeStage, StripStage, OutputFilter}
  {
    var r := Parse(p, env, markdown, language);
    assert Kinds(r.stages) == [MarkdownAlterHook, Conversion, HtmlAlterHook];
  }

  /**
   * A configured value PHP treats as false ("" or "0") falls back to
   * FILTER_OUTPUT, so the output filter runs.
   */
  lemma FalsyStrategyIsFiltered(p: Parser, env: Collaborators, markdown: string, language: Option<Language>)
    requires p.stored.kind.Some? && p.stored.kind.value.Unrecognized? && FalsyString(p.stored.kind.value.name)
    ensures var r := Parse(p, env, markdown, language);
      exists i :: 0 <= i < |r.stages| && r.stages[i].kind == OutputFilter
  {
    FilterRunsIffFilterOutput(p, env, markdown, language);
  }

  /**
   * With hooks that change nothing, ESCAPE_INPUT on `<b>` returns a value that
   * wraps `&lt;b&gt;`: the result holds the processed markdown, not the
   * caller's original string.
   */
  lemma ParsedWrapsProcessedMarkdown(self: Obj, heap: Heap, convert: (string, Option<Language>) -> string)
    ensures var p := Parser(self, heap, StoredRenderStrategy(Some(EscapeInput), None, None));
      var env := Collaborators(s => s, (s, c) => (s, c), convert, (s, c) => s, (s, l) => s);
      var r := Parse(p, env, "<b>", None);
      r.parsed.markdown == "&lt;b&gt;" && r.parsed.markdown != "<b>"
  {
    var p := Parser(self, heap, StoredRenderStrategy(Some(EscapeInput), None, None));
    var env := Collaborators(s => s, (s, c) => (s, c), convert, (s, c) => s, (s, l) => s);
    var r := Parse(p, env, "<b>", None);
    PreprocessingBeforeHook(p, env, "<b>", None);
    assert r.stages[1].kind == MarkdownAlterHook && r.stages[2].kind == Conversion;
    assert r.stages[1].output == r.stages[1].input by {
      assert Performs(r.stages[1], env, InitialContext(p, None), r.htmlHookContext, None);
    }
    assert r.parsed.markdown == r.stages[2].input == r.stages[1].output;
    HtmlEscape.EscapeTag();
  }
}

=== FILE: extensible_parser.dfy ===
/**
 * The extensible parser base class: which extensions `getConfiguration`
 * persists, how extension guidelines are merged and altered, and the lazily
 * built extension collection with its keyed configuration overwrite.
 *
 * The extension collection is a sequence of extension records in iteration
 * order. Operations that iterate `$this->extensions()` take the built
 * collection as an argument; `Extensions` models the lazy build itself.
 */
module ExtensibleParser {
  import opened Wrappers
  import opened PhpValues
  import opened Sequences
  import BaseParser

  /**
   * An extension plugin as the parser sees it. `guidelines` is None when the
   * extension does not implement the guidelines interface, else what its
   * getGuidelines() returns; `altersGuidelines` says whether it implements the
   * guidelines-alter interface.
   */
  datatype Extension = Extension(
    id: string,
    enabled: bool,
    requiredBy: seq<string>,
    configuration: Value,
    guidelines: Option<Value>,
    altersGuidelines: bool)

  /** Raised by the collection for an id it does not hold. */
  datatype ExtensionError = UnknownExtension(id: string)

  /** The collection's `get($id)`: the first extension with that id. */
  function Find(c: seq<Extension>, id: string): (r: Option<Extension>)
    ensures r.Some? ==> r.value in c && r.value.id == id
    ensures r.None? <==> forall i :: 0 <= i < |c| ==> c[i].id != id
  {
    if |c| == 0 then None
    else if c[0].id == id then Some(c[0])
    else
      var r := Find(c[1..], id);
      assert forall i :: 1 <= i < |c| ==> c[i] == c[1..][i - 1];
      r
  }

  /** Some id in `deps` names an extension of `c` whose own flag is enabled. */
  ghost predicate HasEnabledDependent(c: seq<Extension>, deps: seq<string>) {
    exists j :: 0 <= j < |deps| && Find(c, deps[j]).Some? && Find(c, deps[j]).value.enabled
  }

  /** Every id in `deps` names an extension of `c`. */
  ghost predicate AllKnown(c: seq<Extension>, deps: seq<string>) {
    forall j :: 0 <= j < |deps| ==> Find(c, deps[j]).Some?
  }

  /** The first `j` ids of `deps` name extensions of `c` that are all disabled. */
  ghost predicate KnownAndDisabled(c: seq<Extension>, deps: seq<string>, j: nat)
    requires j <= |deps|
  {
    forall k :: 0 <= k < j ==> Find(c, deps[k]).Some? && !Find(c, deps[k]).value.enabled
  }

  /** The scan reaches an unknown id `deps[j]`: every id before it is known and disabled. */
  ghost predicate RaisesAt(c: seq<Extension>, deps: seq<string>, j: nat) {
    j < |deps| && Find(c, deps[j]).None? && KnownAndDisabled(c, deps, j)
  }

  /** Some unknown id of `deps` comes before every enabled dependent. */
  ghost predicate ScanRaises(c: seq<Extension>, deps: seq<string>) {
    exists j: nat :: RaisesAt(c, deps, j)
  }

  /** Dropping a known, disabled first id changes nothing about where the scan raises. */
  lemma RaisesAtTail(c: seq<Extension>, deps: seq<string>)
    requires |deps| > 0 && Find(c, deps[0]).Some? && !Find(c, deps[0]).value.enabled
    ensures ScanRaises(c, deps) <==> ScanRaises(c, deps[1..])
  {
    if ScanRaises(c, deps) {
      var j: nat :| RaisesAt(c, deps, j);
      assert j > 0;
      assert RaisesAt(c, deps[1..], j - 1) by {
        forall k | 0 <= k < j - 1
          ensures Find(c, deps[1..][k]).Some? && !Find(c, deps[1..][k]).value.enabled
        {
          assert deps[1..][k] == deps[k + 1];
        }
      }
    }
    if ScanRaises(c, deps[1..]) {
      var j: nat :| RaisesAt(c, deps[1..], j);
      RaisesAtShift(c, deps, j);
    }
  }

  /** The scan raises at one position only: the first unknown id, since every id before it is known. */
  lemma RaisesAtUnique(c: seq<Extension>, deps: seq<string>, i: nat, j: nat)
    requires RaisesAt(c, deps, i) && RaisesAt(c, deps, j)
    ensures i == j
  {
  }

  /** Where the scan of the tail raises, the scan of the whole list raises one position later. */
  lemma RaisesAtShift(c: seq<Extension>, deps: seq<string>, j: nat)
    requires |deps| > 0 && Find(c, deps[0]).Some? && !Find(c, deps[0]).value.enabled
    requires RaisesAt(c, deps[1..], j)
    ensures RaisesAt(c, deps, j + 1) && deps[j + 1] == deps[1..][j]
  {
    forall k | 0 <= k < j + 1
      ensures Find(c, deps[k]).Some? && !Find(c, deps[k]).value.enabled
    {
      if k > 0 {
        assert deps[k] == deps[1..][k - 1];
      }
    }
  }

  /** An enabled first dependent stops the scan before anything can raise. */
  lemma EnabledHeadNeverRaises(c: seq<Extension>, deps: seq<string>)
    requires |deps| > 0 && Find(c, deps[0]).Some? && Find(c, deps[0]).value.enabled
    ensures !ScanRaises(c, deps)
  {
    forall j: nat
      ensures !RaisesAt(c, deps, j)
    {
      if 0 < j < |deps| {
        assert !(Find(c, deps[0]).Some? && !Find(c, deps[0]).value.enabled);
      }
    }
  }

  /**
   * The scan over an extension's `requiredBy` list: looks each dependent up in
   * order and stops at the first enabled one. Looking up an unknown id raises,
   * so the scan fails exactly when an unknown id comes before every enabled one.
   */
  function RequiredByEnabled(c: seq<Extension>, deps: seq<string>): (r: Result<bool, ExtensionError>)
    ensures r.Success? ==> (r.value <==> HasEnabledDependent(c, deps))
    ensures AllKnown(c, deps) ==> r.Success?
    ensures r.Failure? ==> r.error.id in deps && Find(c, r.error.id).None?
    ensures r.Failure? <==> ScanRaises(c, deps)
    ensures r.Failure? ==> exists j: nat :: j < |deps| && RaisesAt(c, deps, j) && r.error.id == deps[j]
  {
    if |deps| == 0 then Success(false)
    else match Find(c, deps[0])
      case None =>
        assert RaisesAt(c, deps, 0) && deps[0] == deps[0];
        Failure(UnknownExtension(deps[0]))
      case Some(d) =>
        if d.enabled then
          EnabledHeadNeverRaises(c, deps);
          Success(true)
        else
          var rest := RequiredByEnabled(c, deps[1..]);
          assert forall j :: 1 <= j < |deps| ==> deps[j] == deps[1..][j - 1];
          assert AllKnown(c, deps) ==> AllKnown(c, deps[1..]);
          RaisesAtTail(c, deps);
          assert rest.Failure? ==> exists j: nat :: j < |deps| && RaisesAt(c, deps, j) && rest.error.id == deps[j] by {
            if rest.Failure? {
              var j: nat :| j < |deps[1..]| && RaisesAt(c, deps[1..], j) && rest.error.id == deps[1..][j];
              RaisesAtShift(c, deps, j);
            }
          }
          rest
  }

  /**
   * Whether `getConfiguration` keeps extension `e`: it is enabled itself, or a
   * dependent named in its `requiredBy` list is enabled. The dependent scan
   * runs first, so an unknown dependent reached by it raises even for an
   * enabled extension.
   */
  function Included(c: seq<Extension>, e: Extension): (r: Result<bool, ExtensionError>)
    ensures r.Success? ==> (r.value <==> e.enabled || HasEnabledDependent(c, e.requiredBy))
    ensures AllKnown(c, e.requiredBy) ==> r.Success?
    ensures r.Failure? ==> r.error.id in e.requiredBy && Find(c, r.error.id).None?
    ensures r.Failure? <==> ScanRaises(c, e.requiredBy)
    ensures r.Failure? ==>
              exists j: nat :: j < |e.requiredBy| && RaisesAt(c, e.requiredBy, j) && r.error.id == e.requiredBy[j]
  {
    var required :- RequiredByEnabled(c, e.requiredBy);
    Success(required || e.enabled)
  }

  /** `Included` as a selection predicate over the collection `c`. */
  function IncludedIn(c: seq<Extension>): Extension -> bool {
    e => Included(c, e) == Success(true)
  }

  /** The configurations of a sequence of extensions, in order. */
  function Configurations(es: seq<Extension>): (r: seq<Value>)
    ensures |r| == |es|
    ensures forall k :: 0 <= k < |es| ==> r[k] == es[k].configuration
  {
    seq(|es|, k requires 0 <= k < |es| => es[k].configuration)
  }

  /** Deciding whether to keep one of the first `n` extensions of `c` raises. */
  ghost predicate LookupFails(c: seq<Extension>, n: nat)
    requires n <= |c|
  {
    exists i :: 0 <= i < n && Included(c, c[i]).Failure?
  }

  lemma LookupFailsStep(c: seq<Extension>, i: nat)
    requires i < |c|
    ensures LookupFails(c, i + 1) <==> LookupFails(c, i) || Included(c, c[i]).Failure?
  {
    if Included(c, c[i]).Failure? {
      assert 0 <= i < i + 1 && Included(c, c[i]).Failure?;
    }
  }

  /**
   * The loop of `getConfiguration`: the configuration of every included
   * extension, in collection order, or the error of the first lookup that fails.
   */
  method CollectConfigurations(c: seq<Extension>) returns (r: Result<seq<Value>, ExtensionError>)
    ensures r.Failure? <==> LookupFails(c, |c|)
    ensures r.Failure? ==> Find(c, r.error.id).None?
    ensures r.Failure? ==> exists i :: 0 <= i < |c| && !LookupFails(c, i) && Included(c, c[i]) == Failure(r.error)
    ensures r.Success? ==> r.value == Configurations(Filter(c, IncludedIn(c)))
  {
    var acc: seq<Value> := [];
    var i := 0;
    while i < |c|
      invariant 0 <= i <= |c|
      invariant !LookupFails(c, i)
      invariant acc == Configurations(Filter(c[..i], IncludedIn(c)))
    {
      var inc := Included(c, c[i]);
      if inc.Failure? {
        assert LookupFails(c, |c|) by {
          assert 0 <= i < |c| && Included(c, c[i]).Failure?;
        }
        return Failure(inc.error);
      }
      LookupFailsStep(c, i);
      CollectStep(c, i);
      if inc.value {
        acc := acc + [c[i].configuration];
      }
      i := i + 1;
    }
    assert c[..i] == c;
    return Success(acc);
  }

  /** One more extension scanned: its configuration is appended exactly when it is kept. */
  lemma CollectStep(c: seq<Extension>, i: nat)
    requires i < |c| && Included(c, c[i]).Success?
    ensures Configurations(Filter(c[..i + 1], IncludedIn(c)))
         == Configurations(Filter(c[..i], IncludedIn(c)))
            + (if Included(c, c[i]).value then [c[i].configuration] else [])
  {
    FilterStep(c, IncludedIn(c), i);
    var kept := Filter(c[..i], IncludedIn(c));
    if Included(c, c[i]).value {
      assert Configurations(kept + [c[i]]) == Configurations(kept) + [c[i].configuration];
    } else {
      assert Configurations(kept) + [] == Configurations(kept);
    }
  }

  /**
   * `getConfiguration`: the parent configuration, plus an `extensions` list
   * only when at least one extension is included; with none included the
   * parent configuration is returned unchanged.
   */
  method GetConfiguration(parent: BaseParser.ParserConfiguration, c: seq<Extension>)
    returns (r: Result<BaseParser.ParserConfiguration, ExtensionError>)
    ensures r.Failure? <==> LookupFails(c, |c|)
    ensures r.Failure? ==> exists i :: 0 <= i < |c| && !LookupFails(c, i) && Included(c, c[i]) == Failure(r.error)
    ensures r.Success? && (forall e :: e in c ==> !IncludedIn(c)(e)) ==> r.value == parent
    ensures r.Success? && (exists e :: e in c && IncludedIn(c)(e)) ==>
              r.value == parent.(extensions := Some(Configurations(Filter(c, IncludedIn(c)))))
  {
    var configs := CollectConfigurations(c);
    if configs.Failure? {
      return Failure(configs.error);
    }
    var kept := Filter(c, IncludedIn(c));
    if |configs.value| > 0 {
      assert kept[0] in kept;
      return Success(parent.(extensions := Some(configs.value)));
    }
    assert |kept| == 0;
    return Success(parent);
  }

  /**
   * An extension is persisted exactly when it is enabled or directly required
   * by an enabled dependent: one level only, not a transitive closure.
   */
  lemma PersistedIffEnabledOrRequired(c: seq<Extension>, e: Extension)
    requires e in c && AllKnown(c, e.requiredBy)
    ensures e in Filter(c, IncludedIn(c)) <==> e.enabled || HasEnabledDependent(c, e.requiredBy)
  {
  }

  /**
   * With A enabled, B required by A and C required by B, B is persisted but C
   * is not, although everything C depends on for B is persisted.
   */
  lemma RequirementIsNotTransitive()
    ensures var a := Extension("a", true, [], Null, None, false);
      var b := Extension("b", false, ["a"], Null, None, false);
      var cc := Extension("c", false, ["b"], Null, None, false);
      var coll := [a, b, cc];
      Included(coll, b) == Success(true) && Included(coll, cc) == Success(false)
  {
    var a := Extension("a", true, [], Null, None, false);
    var b := Extension("b", false, ["a"], Null, None, false);
    var cc := Extension("c", false, ["b"], Null, None, false);
    var coll := [a, b, cc];
    assert Find(coll, "a") == Some(a);
    assert Find(coll, "b") == Some(b);
    assert RequiredByEnabled(coll, ["b"]) == Success(false) by {
      assert ["b"][1..] == [];
    }
  }

  /** Looking an id up in a collection whose flags were only switched on finds the same entry, no less enabled. */
  lemma {:induction false} FindAfterEnabling(c: seq<Extension>, k: nat, id: string)
    requires k < |c|
    ensures var c' := c[k := c[k].(enabled := true)];
      && (Find(c', id).Some? <==> Find(c, id).Some?)
      && (Find(c, id).Some? && Find(c, id).value.enabled ==> Find(c', id).value.enabled)
    decreases |c|
  {
    var c' := c[k := c[k].(enabled := true)];
    if c[0].id != id && k > 0 {
      assert c'[1..] == c[1..][k - 1 := c[1..][k - 1].(enabled := true)];
      FindAfterEnabling(c[1..], k - 1, id);
    } else if c[0].id != id {
      assert c'[1..] == c[1..];
    }
  }

  /** Switching on one extension's flag never turns a found enabled dependent into a lost one. */
  lemma {:induction false} RequiredAfterEnabling(c: seq<Extension>, k: nat, deps: seq<string>)
    requires k < |c|
    requires RequiredByEnabled(c, deps) == Success(true)
    ensures RequiredByEnabled(c[k := c[k].(enabled := true)], deps) == Success(true)
    decreases |deps|
  {
    var c' := c[k := c[k].(enabled := true)];
    FindAfterEnabling(c, k, deps[0]);
    if !Find(c', deps[0]).value.enabled {
      RequiredAfterEnabling(c, k, deps[1..]);
    }
  }

  /** Enabling one more extension never drops an extension from the persisted configuration. */
  lemma {:induction false} EnablingIsMonotonic(c: seq<Extension>, k: nat, i: nat)
    requires k < |c| && i < |c|
    requires Included(c, c[i]) == Success(true)
    ensures var c' := c[k := c[k].(enabled := true)];
      Included(c', c'[i]) == Success(true)
  {
    var c' := c[k := c[k].(enabled := true)];
    assert c'[i].requiredBy == c[i].requiredBy;
    assert c[i].enabled ==> c'[i].enabled;
    var req := RequiredByEnabled(c, c[i].requiredBy);
    if req.value {
      RequiredAfterEnabling(c, k, c[i].requiredBy);
    } else {
      assert c[i].enabled;
      var deps := c[i].requiredBy;
      forall j | 0 <= j < |deps|
        ensures Find(c', deps[j]).Some?
      {
        AllKnownFromSuccess(c, deps, j);
        FindAfterEnabling(c, k, deps[j]);
      }
    }
  }

  /** A scan that ended without finding an enabled dependent looked up every id successfully. */
  lemma {:induction false} AllKnownFromSuccess(c: seq<Extension>, deps: seq<string>, j: nat)
    requires RequiredByEnabled(c, deps) == Success(false)
    requires j < |deps|
    ensures Find(c, deps[j]).Some?
    decreases |deps|
  {
    if j > 0 {
      assert deps[j] == deps[1..][j - 1];
      AllKnownFromSuccess(c, deps[1..], j - 1);
    }
  }

  // ---------------------------------------------------------------------------
  // Guidelines

  /** The extension implements the guidelines interface and returned a non-empty element. */
  predicate ContributesGuidelines(e: Extension) {
    e.guidelines.Some? && Truthy(e.guidelines.value)
  }

  predicate HasAlterCapability(e: Extension) {
    e.altersGuidelines
  }

  /** No two extensions of the collection share an id. */
  ghost predicate UniqueIds(c: seq<Extension>) {
    forall i, j :: 0 <= i < j < |c| ==> c[i].id != c[j].id
  }

  /** Some extension of `c` with this id contributes guidelines. */
  ghost predicate Contributes(c: seq<Extension>, id: string) {
    exists i :: 0 <= i < |c| && c[i].id == id && ContributesGuidelines(c[i])
  }

  /** The `guides['extensions'][$plugin_id]` entries the extensions write, in collection order. */
  function Contributions(c: seq<Extension>): (r: map<string, Value>)
    ensures forall id :: id in r <==> Contributes(c, id)
    ensures forall i :: 0 <= i < |c| && ContributesGuidelines(c[i]) ==> c[i].id in r
    ensures UniqueIds(c) ==>
              forall i :: 0 <= i < |c| && ContributesGuidelines(c[i]) ==> r[c[i].id] == c[i].guidelines.value
  {
    if |c| == 0 then map[]
    else
      var init := c[..|c| - 1];
      var last := c[|c| - 1];
      var before := Contributions(init);
      assert forall i :: 0 <= i < |c| - 1 ==> c[i] == init[i];
      if ContributesGuidelines(last) then before[last.id := last.guidelines.value] else before
  }

  /** The extension guides already present in the base guides, if any. */
  function ExistingExtensionGuides(base: map<string, Value>): map<string, Value> {
    if "extensions" in base && base["extensions"].Dict? then base["extensions"].entries else map[]
  }

  /**
   * The base guides with their `extensions` group replaced by the entries it
   * already had, overwritten by and extended with `added`.
   */
  function WithExtensionGuides(base: map<string, Value>, added: map<string, Value>): (r: map<string, Value>)
    ensures r.Keys == base.Keys + {"extensions"}
    ensures forall k :: k in base && k != "extensions" ==> r[k] == base[k]
    ensures r["extensions"].Dict?
    ensures forall id :: id in r["extensions"].entries <==> id in ExistingExtensionGuides(base) || id in added
    ensures forall id :: id in added ==> r["extensions"].entries[id] == added[id]
    ensures forall id :: id in ExistingExtensionGuides(base) && id !in added ==>
              r["extensions"].entries[id] == ExistingExtensionGuides(base)[id]
  {
    base["extensions" := Dict(ExistingExtensionGuides(base) + added)]
  }

  /**
   * `getGuidelines`: the base guide groups are kept; an `extensions` group is
   * written only when some extension implements the guidelines interface and
   * returned a non-empty element; it then holds the entries it already had and
   * those extensions' entries, and nothing else.
   */
  function GetGuidelines(base: map<string, Value>, c: seq<Extension>): (r: map<string, Value>)
    ensures forall k :: k in base && k != "extensions" ==> k in r && r[k] == base[k]
    ensures (forall i :: 0 <= i < |c| ==> !ContributesGuidelines(c[i])) ==> r == base
    ensures (exists i :: 0 <= i < |c| && ContributesGuidelines(c[i])) ==>
              && r.Keys == base.Keys + {"extensions"}
              && r["extensions"].Dict?
              && (forall i :: 0 <= i < |c| && ContributesGuidelines(c[i]) ==> c[i].id in r["extensions"].entries)
              && (UniqueIds(c) ==> forall i :: 0 <= i < |c| && ContributesGuidelines(c[i]) ==>
                    r["extensions"].entries[c[i].id] == c[i].guidelines.value)
              && (forall id :: id in r["extensions"].entries <==>
                    id in ExistingExtensionGuides(base) || Contributes(c, id))
              && (forall id :: id in ExistingExtensionGuides(base) && !Contributes(c, id) ==>
                    r["extensions"].entries[id] == ExistingExtensionGuides(base)[id])
  {
    var added := Contributions(c);
    if added.Keys == {} then
      assert forall i :: 0 <= i < |c| && ContributesGuidelines(c[i]) ==> c[i].id in added;
      base
    else WithExtensionGuides(base, added)
  }

  /** The guides after `alterGuidelines`, and the ids of the extensions it invoked, in order. */
  datatype AlterRun = AlterRun(guides: map<string, Value>, invoked: seq<string>)

  function Ids(es: seq<Extension>): (r: seq<string>)
    ensures |r| == |es|
    ensures forall k :: 0 <= k < |es| ==> r[k] == es[k].id
  {
    seq(|es|, k requires 0 <= k < |es| => es[k].id)
  }

  /** The guides after each id in `ids`, first to last, has rewritten them in turn. */
  function ApplyAlters(guides: map<string, Value>, ids: seq<string>, alter: (string, map<string, Value>) -> map<string, Value>)
    : map<string, Value>
    decreases |ids|
  {
    if |ids| == 0 then guides else ApplyAlters(alter(ids[0], guides), ids[1..], alter)
  }

  /** One more rewrite after a run is the run over the longer id list. */
  lemma {:induction false} ApplyAltersSnoc(guides: map<string, Value>, ids: seq<string>, id: string, alter: (string, map<string, Value>) -> map<string, Value>)
    ensures ApplyAlters(guides, ids + [id], alter) == alter(id, ApplyAlters(guides, ids, alter))
    decreases |ids|
  {
    if |ids| == 0 {
      assert ids + [id] == [id];
      assert [id][1..] == [];
    } else {
      assert (ids + [id])[1..] == ids[1..] + [id];
      ApplyAltersSnoc(alter(ids[0], guides), ids[1..], id, alter);
    }
  }

  /**
   * `alterGuidelines`: each extension that implements the alter interface
   * rewrites the guides in turn, in collection order; the others are skipped.
   * `alter(id, guides)` is what extension `id`'s alterGuidelines does.
   */
  function AlterGuidelines(guides: map<string, Value>, c: seq<Extension>, alter: (string, map<string, Value>) -> map<string, Value>)
    : (r: AlterRun)
    ensures r.invoked == Ids(Filter(c, HasAlterCapability))
    ensures r.guides == ApplyAlters(guides, r.invoked, alter)
    ensures (forall i :: 0 <= i < |c| ==> !c[i].altersGuidelines) ==> r.guides == guides
  {
    if |c| == 0 then AlterRun(guides, [])
    else
      var init := c[..|c| - 1];
      var last := c[|c| - 1];
      var before := AlterGuidelines(guides, init, alter);
      assert forall i :: 0 <= i < |c| - 1 ==> c[i] == init[i];
      if last.altersGuidelines
      then
        assert Filter(c, HasAlterCapability) == Filter(init, HasAlterCapability) + [last];
        ApplyAltersSnoc(guides, before.invoked, last.id, alter);
        AlterRun(alter(last.id, before.guides), before.invoked + [last.id])
      else before
  }

  /** Extensions without the alter capability have no effect: only the capable ones, in order, decide the guides. */
  lemma {:induction false} OnlyAlteringExtensionsMatter(guides: map<string, Value>, c: seq<Extension>, alter: (string, map<string, Value>) -> map<string, Value>)
    ensures AlterGuidelines(guides, c, alter) == AlterGuidelines(guides, Filter(c, HasAlterCapability), alter)
    decreases |c|
  {
    if |c| > 0 {
      var init := c[..|c| - 1];
      var last := c[|c| - 1];
      var f := Filter(init, HasAlterCapability);
      OnlyAlteringExtensionsMatter(guides, init, alter);
      if last.altersGuidelines {
        var g := f + [last];
        assert Filter(c, HasAlterCapability) == g;
        assert g[..|g| - 1] == f;
        assert Filter(f, HasAlterCapability) == f by {
          FilterIdempotent(init, HasAlterCapability);
        }
        OnlyAlteringExtensionsMatter(guides, f, alter);
      }
    }
  }

  // ---------------------------------------------------------------------------
  // The lazily built collection

  /**
   * The parser's extension state: the recorded per-extension configurations
   * (`$this->extensions`) and the collection, once built.
   */
  datatype ParserState = ParserState(extensionConfigs: map<string, Value>, collection: Option<seq<Extension>>)

  /**
   * `extensions()`: builds the collection on the first call with `create`
   * (the plugin collection factory, given the recorded configurations) and
   * returns the stored one on every later call.
   */
  function Extensions(s: ParserState, create: map<string, Value> -> seq<Extension>): (r: (ParserState, seq<Extension>))
    ensures r.0.collection == Some(r.1)
    ensures r.0.extensionConfigs == s.extensionConfigs
    ensures s.collection.Some? ==> r.1 == s.collection.value && r.0 == s
    ensures s.collection.None? ==> r.1 == create(s.extensionConfigs)
  {
    match s.collection
    case Some(c) => (s, c)
    case None =>
      var c := create(s.extensionConfigs);
      (s.(collection := Some(c)), c)
  }

  /** Once built, every later call returns the same collection and changes nothing. */
  lemma ExtensionsBuiltOnce(s: ParserState, create: map<string, Value> -> seq<Extension>)
    ensures var (s1, c1) := Extensions(s, create);
      var (s2, c2) := Extensions(s1, create);
      s2 == s1 && c2 == c1
  {
  }

  /** `extension($id)`: a lookup of that id in the (lazily built) collection. */
  function GetExtension(s: ParserState, id: string, create: map<string, Value> -> seq<Extension>)
    : (r: (ParserState, Result<Extension, ExtensionError>))
    ensures r.0 == Extensions(s, create).0
    ensures var c := Extensions(s, create).1;
      && (r.1.Success? <==> exists i :: 0 <= i < |c| && c[i].id == id)
      && (r.1.Success? ==> r.1.value in c && r.1.value.id == id)
      && (r.1.Failure? ==> r.1.error == UnknownExtension(id))
  {
    var (s', c) := Extensions(s, create);
    match Find(c, id)
    case Some(e) => (s', Success(e))
    case None => (s', Failure(UnknownExtension(id)))
  }

  /** The collection's setInstanceConfiguration: the entries with that id get the new configuration. */
  function SetInstanceConfiguration(c: seq<Extension>, id: string, configuration: Value): (r: seq<Extension>)
    ensures |r| == |c|
    ensures forall i :: 0 <= i < |c| ==> r[i].id == c[i].id && r[i].enabled == c[i].enabled && r[i].requiredBy == c[i].requiredBy
    ensures forall i :: 0 <= i < |c| && c[i].id == id ==> r[i].configuration == configuration
    ensures forall i :: 0 <= i < |c| && c[i].id != id ==> r[i] == c[i]
  {
    seq(|c|, i requires 0 <= i < |c| => if c[i].id == id then c[i].(configuration := configuration) else c[i])
  }

  /**
   * `setExtensionConfig`: overwrites the recorded configuration for `id` only,
   * and forwards it to the collection only if the collection is already built.
   */
  function SetExtensionConfig(s: ParserState, id: string, configuration: Value): (r: ParserState)
    ensures r.extensionConfigs.Keys == s.extensionConfigs.Keys + {id}
    ensures r.extensionConfigs[id] == configuration
    ensures forall k :: k in s.extensionConfigs && k != id ==> r.extensionConfigs[k] == s.extensionConfigs[k]
    ensures r.collection.Some? <==> s.collection.Some?
    ensures s.collection.Some? ==> r.collection.value == SetInstanceConfiguration(s.collection.value, id, configuration)
  {
    var configs := s.extensionConfigs[id := configuration];
    match s.collection
    case Some(c) => ParserState(configs, Some(SetInstanceConfiguration(c, id, configuration)))
    case None => ParserState(configs, None)
  }

  /**
   * After `setExtensionConfig` on a built collection, `extension($id)` returns
   * an extension carrying the new configuration.
   */
  lemma {:induction false} SetThenGet(s: ParserState, id: string, configuration: Value, create: map<string, Value> -> seq<Extension>)
    requires s.collection.Some? && exists i :: 0 <= i < |s.collection.value| && s.collection.value[i].id == id
    ensures var r := GetExtension(SetExtensionConfig(s, id, configuration), id, create).1;
      r.Success? && r.value.configuration == configuration
  {
    var s' := SetExtensionConfig(s, id, configuration);
    var c := s'.collection.value;
    var i :| 0 <= i < |s.collection.value| && s.collection.value[i].id == id;
    assert c[i].id == id;
    var e := Find(c, id).value;
    assert e in c;
    var j :| 0 <= j < |c| && c[j] == e;
    assert s.collection.value[j].id == id;
  }
}

=== FILE: html_escape.dfy ===
/**
 * `Html::escape`, modelled as the entity replacement PHP's `htmlspecialchars`
 * performs with ENT_QUOTES: the five characters `& " ' < >` become entities.
 */
module HtmlEscape {

  /** The text written for one character: its entity, or the character itself. */
  function EscapeChar(c: char): string {
    match c
    case '&' => "&amp;"
    case '"' => "&quot;"
    case '\'' => "&#039;"
    case '<' => "&lt;"
    case '>' => "&gt;"
    case _ => [c]
  }

  /** `s` with every special character replaced by its entity. */
  function Escape(s: string): (r: string)
    ensures |r| >= |s|
    ensures '<' !in r && '>' !in r && '"' !in r && '\'' !in r
  {
    if |s| == 0 then ""
    else EscapeChar(s[0]) + Escape(s[1..])
  }

  /** Decodes the five entities `Escape` writes; any other text is copied unchanged. */
  function Unescape(s: string): string
    decreases |s|
  {
    if |s| == 0 then ""
    else if "&amp;" <= s then "&" + Unescape(s[5..])
    else if "&quot;" <= s then "\"" + Unescape(s[6..])
    else if "&#039;" <= s then "'" + Unescape(s[6..])
    else if "&lt;" <= s then "<" + Unescape(s[4..])
    else if "&gt;" <= s then ">" + Unescape(s[4..])
    else [s[0]] + Unescape(s[1..])
  }

  lemma UnescapeAmp(rest: string)
    ensures Unescape("&amp;" + rest) == "&" + Unescape(rest)
  {
    var e := "&amp;" + rest;
    assert e[..5] == "&amp;" && e[5..] == rest;
  }

  /** Each of the four entities that does not start with "&a" decodes back to its character. */
  lemma UnescapeEntity(c: char, rest: string)
    requires c == '"' || c == '\'' || c == '<' || c == '>'
    ensures Unescape(EscapeChar(c) + rest) == [c] + Unescape(rest)
  {
    var ent := EscapeChar(c);
    var e := ent + rest;
    assert e[..|ent|] == ent && e[|ent|..] == rest;
    assert e[1] == ent[1];
  }

  lemma UnescapePlain(c: char, rest: string)
    requires c != '&'
    ensures Unescape([c] + rest) == [c] + Unescape(rest)
  {
    var e := [c] + rest;
    assert e[0] == c && e[1..] == rest;
  }

  /** Decoding an escaped character followed by any text yields that character, then the decoded text. */
  lemma UnescapeChar(c: char, rest: string)
    ensures Unescape(EscapeChar(c) + rest) == [c] + Unescape(rest)
  {
    match c
    case '&' => UnescapeAmp(rest);
    case '"' => UnescapeEntity(c, rest);
    case '\'' => UnescapeEntity(c, rest);
    case '<' => UnescapeEntity(c, rest);
    case '>' => UnescapeEntity(c, rest);
    case _ => UnescapePlain(c, rest);
  }

  /** Escaping loses nothing: decoding the entities gives back the original text. */
  lemma {:induction false} EscapeRoundTrip(s: string)
    ensures Unescape(Escape(s)) == s
    decreases |s|
  {
    if |s| > 0 {
      EscapeRoundTrip(s[1..]);
      UnescapeChar(s[0], Escape(s[1..]));
      assert s == [s[0]] + s[1..];
    }
  }

  /** Escaping the tag `<b>` gives `&lt;b&gt;`. */
  lemma EscapeTag()
    ensures Escape("<b>") == "&lt;b&gt;"
  {
    assert Escape(">") == "&gt;";
    assert Escape("b>") == "b&gt;";
    assert Escape("<b>") == "&lt;" + Escape("b>");
  }
}

=== FILE: link_renderer.dfy ===
/**
 * The "Enhanced Links" CommonMark extension: renders a link inline as an `a`
 * element whose `href`, `target`, `rel` and `title` attributes follow the
 * extension's settings, deciding "external" against a whitelist of hosts.
 *
 * `parse_url(..., PHP_URL_HOST)`, the site's base URL and the inline renderer
 * for a link's children are parameters (`Environment`).
 */
module LinkRenderer {
  import opened Wrappers
  import opened PhpValues
  import opened Strings
  import opened Sequences
  import HtmlEscape

  /** A CommonMark inline: a link, or any other inline class. */
  datatype Inline =
    | Link(url: string, attributes: map<string, string>, title: Option<string>, children: seq<Inline>)
    | OtherInline(className: string)

  /** The extension's three settings. */
  datatype LinkSettings = LinkSettings(externalNewWindow: Value, internalHostWhitelist: string, noFollow: Value)

  /** `defaultSettings`: new windows for external links, the request host as whitelist, nofollow on external links. */
  function DefaultSettings(requestHost: string): (r: LinkSettings)
    ensures Truthy(r.externalNewWindow)
    ensures r.noFollow == Text("external")
    ensures '\n' !in requestHost ==> SplitLines(r.internalHostWhitelist) == (if requestHost == "" then [] else [requestHost])
  {
    var r := LinkSettings(Flag(true), requestHost, Text("external"));
    assert '\n' !in requestHost ==> SplitLines(requestHost) == (if requestHost == "" then [] else [requestHost]) by {
      if '\n' !in requestHost {
        SingleLine(requestHost);
      }
    }
    r
  }

  /**
   * What the renderer cannot compute itself: the host part of a URL (None when
   * it has none), the site's base URL, and the rendering of child inlines.
   */
  datatype Environment = Environment(
    hostOf: string -> Option<string>,
    baseUrl: string,
    renderInlines: seq<Inline> -> string)

  datatype HtmlElement = HtmlElement(tag: string, attributes: map<string, string>, contents: string)

  datatype RenderError = InvalidArgument(message: string)

  // ---------------------------------------------------------------------------
  // The whitelist setting as lines

  /** `s` without one trailing carriage return. */
  function DropCr(s: string): (r: string)
    ensures r == s || (s == r + "\r")
  {
    if |s| > 0 && s[|s| - 1] == '\r' then s[..|s| - 1] else s
  }

  lemma NoNewlineBefore(s: string, i: nat)
    requires i <= |s|
    requires forall j: nat :: j < i ==> !OccursAt(s, "\n", j)
    ensures '\n' !in s[..i]
  {
    forall j | 0 <= j < i
      ensures s[j] != '\n'
    {
      assert !OccursAt(s, "\n", j);
      assert s[j..j + 1] == [s[j]];
    }
  }

  /**
   * The pieces between the separators of `preg_split("/\r\n|\n/", s)`: every
   * line feed separates, and a carriage return right before it belongs to the
   * separator.
   */
  function RawLines(s: string): (r: seq<string>)
    ensures |r| >= 1
    ensures forall k :: 0 <= k < |r| ==> '\n' !in r[k]
    decreases |s|
  {
    match FindFirst(s, "\n")
    case None =>
      NoNewlineBefore(s, |s|);
      assert s[..|s|] == s;
      [s]
    case Some(i) =>
      NoNewlineBefore(s, i);
      var rest := RawLines(s[i + 1..]);
      assert forall k :: 1 <= k < |rest| + 1 ==> ([DropCr(s[..i])] + rest)[k] == rest[k - 1];
      [DropCr(s[..i])] + rest
  }

  predicate NonEmpty(s: string) {
    |s| > 0
  }

  /** The whitelist setting split into lines with `PREG_SPLIT_NO_EMPTY`: empty lines are dropped. */
  function SplitLines(s: string): (r: seq<string>)
    ensures forall k :: 0 <= k < |r| ==> |r[k]| > 0 && '\n' !in r[k]
  {
    var r := Filter(RawLines(s), NonEmpty);
    assert forall k :: 0 <= k < |r| ==> r[k] in r;
    r
  }

  /** A host name fit for one whitelist line: non-empty, without line breaks. */
  predicate HostLine(h: string) {
    |h| > 0 && '\n' !in h && '\r' !in h
  }

  /** The lines joined by `sep`, as an administrator types the whitelist. */
  function JoinLines(lines: seq<string>, sep: string): string {
    if |lines| == 0 then ""
    else if |lines| == 1 then lines[0]
    else lines[0] + sep + JoinLines(lines[1..], sep)
  }

  /** A text without line feeds is one raw piece. */
  lemma NoNewlineIsOnePiece(h: string)
    requires '\n' !in h
    ensures RawLines(h) == [h]
  {
    forall j: nat
      ensures !OccursAt(h, "\n", j)
    {
      if j + 1 <= |h| {
        assert h[j..j + 1] == [h[j]];
      }
    }
  }

  /** A text without line feeds is one whitelist line, or none when it is empty. */
  lemma SingleLine(h: string)
    requires '\n' !in h
    ensures SplitLines(h) == (if h == "" then [] else [h])
  {
    NoNewlineIsOnePiece(h);
    assert [h][..0] == [];
  }

  /** The first line feed of `h + sep + rest` is the one ending `sep`. */
  lemma FirstNewline(h: string, sep: string, rest: string)
    requires HostLine(h) && (sep == "\n" || sep == "\r\n")
    ensures FindFirst(h + sep + rest, "\n") == Some(|h| + |sep| - 1)
  {
    var s := h + sep + rest;
    var idx := |h| + |sep| - 1;
    assert s[idx..idx + 1] == "\n";
    assert OccursAt(s, "\n", idx);
    forall j: nat | j < idx
      ensures !OccursAt(s, "\n", j)
    {
      assert s[j..j + 1] == [s[j]];
      if j < |h| {
        assert s[j] == h[j];
      } else {
        assert s[j] == '\r';
      }
    }
  }

  /** The text before the first line feed of `h + sep + rest`, without the separator's carriage return, is `h`. */
  lemma DropSeparator(h: string, sep: string, rest: string)
    requires HostLine(h) && (sep == "\n" || sep == "\r\n")
    ensures DropCr((h + sep + rest)[..|h| + |sep| - 1]) == h
  {
    var s := h + sep + rest;
    if sep == "\r\n" {
      assert s[..|h| + 1] == h + "\r";
      assert (h + "\r")[..|h|] == h;
    } else {
      assert s[..|h|] == h;
      assert h[|h| - 1] in h;
    }
  }

  /** A host line followed by a separator is split off as the first piece. */
  lemma RawLinesCons(h: string, sep: string, rest: string)
    requires HostLine(h) && (sep == "\n" || sep == "\r\n")
    ensures RawLines(h + sep + rest) == [h] + RawLines(rest)
  {
    var s := h + sep + rest;
    FirstNewline(h, sep, rest);
    DropSeparator(h, sep, rest);
    assert s[|h| + |sep|..] == rest;
  }

  /** Splitting the joined lines gives back every line, whichever of the two separators was typed. */
  lemma {:induction false} RawLinesJoin(lines: seq<string>, sep: string)
    requires |lines| >= 1
    requires forall k :: 0 <= k < |lines| ==> HostLine(lines[k])
    requires sep == "\n" || sep == "\r\n"
    ensures RawLines(JoinLines(lines, sep)) == lines
    decreases |lines|
  {
    if |lines| == 1 {
      NoNewlineIsOnePiece(lines[0]);
    } else {
      RawLinesCons(lines[0], sep, JoinLines(lines[1..], sep));
      RawLinesJoin(lines[1..], sep);
      assert lines == [lines[0]] + lines[1..];
    }
  }

  /** The whitelist setting round-trips: the hosts typed one per line are exactly the hosts read back. */
  lemma WhitelistLinesRoundTrip(lines: seq<string>, sep: string)
    requires forall k :: 0 <= k < |lines| ==> HostLine(lines[k])
    requires sep == "\n" || sep == "\r\n"
    ensures SplitLines(JoinLines(lines, sep)) == lines
  {
    if |lines| == 0 {
      SingleLine("");
    } else {
      RawLinesJoin(lines, sep);
      FilterKeepsAll(lines, NonEmpty);
    }
  }

  // ---------------------------------------------------------------------------
  // Internal hosts

  /**
   * The internal hosts: the whitelist lines, with the base URL's host appended
   * when no line is equal to it. A base URL without a host adds nothing that
   * could equal a link's host.
   */
  function Whitelist(setting: string, baseHost: Option<string>): (r: seq<string>)
    ensures baseHost.Some? ==> baseHost.value in r
    ensures forall h :: h in r ==> h in SplitLines(setting) || baseHost == Some(h)
    ensures forall h :: h in SplitLines(setting) ==> h in r
  {
    var hosts := SplitLines(setting);
    if baseHost.Some? && baseHost.value !in hosts then hosts + [baseHost.value] else hosts
  }

  /** A string of decimal digits only. */
  predicate IsDigits(s: string) {
    |s| > 0 && forall k :: 0 <= k < |s| ==> '0' <= s[k] <= '9'
  }

  /** The number a digit string denotes. */
  function DigitsValue(s: string): (r: nat)
    requires forall k :: 0 <= k < |s| ==> '0' <= s[k] <= '9'
  {
    if |s| == 0 then 0
    else DigitsValue(s[..|s| - 1]) * 10 + (s[|s| - 1] as int - '0' as int)
  }

  /** PHP_INT_MAX on a 64-bit build. */
  const PhpIntMax: int := 0x7fff_ffff_ffff_ffff

  /**
   * PHP's loose `==` between two strings, restricted to the case that matters
   * here: two digit strings whose value fits in an integer are compared as
   * numbers, so "010" == "10"; two that both exceed PHP_INT_MAX with the same
   * value are compared as strings again.
   */
  predicate LooseEquals(a: string, b: string) {
    a == b || (IsDigits(a) && IsDigits(b) && DigitsValue(a) == DigitsValue(b) <= PhpIntMax)
  }

  /** Whether a non-strict `array_search` finds `x` in `hosts`. */
  predicate LooselyListed(x: string, hosts: seq<string>) {
    exists k :: 0 <= k < |hosts| && LooseEquals(x, hosts[k])
  }

  /**
   * The whitelist as the code builds it: the presence test for the base host
   * is a non-strict `array_search`, while hosts are later matched strictly.
   */
  function WhitelistAsWritten(setting: string, baseHost: Option<string>): (r: seq<string>)
    ensures forall h :: h in SplitLines(setting) ==> h in r
    ensures baseHost.Some? && !LooselyListed(baseHost.value, SplitLines(setting)) ==> baseHost.value in r
    ensures forall h :: h in r ==>
              h in SplitLines(setting) || (baseHost == Some(h) && !LooselyListed(h, SplitLines(setting)))
  {
    var hosts := SplitLines(setting);
    if baseHost.Some? && !LooselyListed(baseHost.value, hosts) then hosts + [baseHost.value] else hosts
  }

  /**
   * `isExternalUrl`: a URL without a host, or with an empty host, is not
   * external; otherwise it is external exactly when its host is not strictly
   * equal to an internal host.
   */
  function IsExternalUrl(url: string, settings: LinkSettings, env: Environment): (r: bool)
    ensures env.hostOf(url).None? ==> !r
    ensures env.hostOf(url).Some? && FalsyString(env.hostOf(url).value) ==> !r
    ensures env.hostOf(url).Some? && !FalsyString(env.hostOf(url).value) ==>
              (r <==> env.hostOf(url).value !in SplitLines(settings.internalHostWhitelist)
                      && env.hostOf(url) != env.hostOf(env.baseUrl))
  {
    var urlHost := env.hostOf(url);
    if urlHost.None? || FalsyString(urlHost.value) then false
    else urlHost.value !in Whitelist(settings.internalHostWhitelist, env.hostOf(env.baseUrl))
  }

  /** The same decision over the whitelist as the code builds it. */
  function IsExternalUrlAsWritten(url: string, settings: LinkSettings, env: Environment): (r: bool)
    ensures env.hostOf(url).None? ==> !r
    ensures env.hostOf(url).Some? && FalsyString(env.hostOf(url).value) ==> !r
    ensures env.hostOf(url).Some? && !FalsyString(env.hostOf(url).value) ==>
              var host := env.hostOf(url).value;
              var lines := SplitLines(settings.internalHostWhitelist);
              (r <==> host !in lines
                      && !(env.hostOf(env.baseUrl) == env.hostOf(url) && !LooselyListed(host, lines)))
  {
    var urlHost := env.hostOf(url);
    if urlHost.None? || FalsyString(urlHost.value) then false
    else urlHost.value !in WhitelistAsWritten(settings.internalHostWhitelist, env.hostOf(env.baseUrl))
  }

  /** The site's own host is always internal, whatever the whitelist setting holds. */
  lemma BaseHostAlwaysInternal(url: string, settings: LinkSettings, env: Environment)
    requires env.hostOf(url) == env.hostOf(env.baseUrl)
    ensures !IsExternalUrl(url, settings, env)
  {
  }

  /** Listing a host in the whitelist setting makes links to it internal. */
  lemma ListedHostIsInternal(url: string, settings: LinkSettings, env: Environment)
    requires env.hostOf(url).Some? && env.hostOf(url).value in SplitLines(settings.internalHostWhitelist)
    ensures !IsExternalUrl(url, settings, env)
  {
  }

  /**
   * As written, a base host that is numerically equal to a whitelist line is
   * never added, so links to the site's own host count as external: with the
   * whitelist "010" and the base host "10".
   */
  lemma BaseHostExternalAsWritten()
    ensures var env := Environment(u => if u == "" then None else Some(u), "10", _ => "");
      var settings := LinkSettings(Flag(true), "010", Text("external"));
      IsExternalUrlAsWritten("10", settings, env) && !IsExternalUrl("10", settings, env)
  {
    var env := Environment(u => if u == "" then None else Some(u), "10", _ => "");
    assert env.hostOf("10") == Some("10");
    WhitelistAsWrittenDropsBaseHost();
  }

  /** "010" and "10" are loosely equal, so the non-strict search finds the base host "10" in the whitelist "010". */
  lemma WhitelistAsWrittenDropsBaseHost()
    ensures WhitelistAsWritten("010", Some("10")) == ["010"]
  {
    SingleLine("010");
    NumericallyEqual();
    assert LooselyListed("10", ["010"]) by {
      assert LooseEquals("10", ["010"][0]);
    }
  }

  lemma NumericallyEqual()
    ensures IsDigits("010") && IsDigits("10") && DigitsValue("010") == DigitsValue("10") == 10
  {
    assert "010"[..2] == "01" && "01"[..1] == "0" && "0"[..0] == "";
    assert "10"[..1] == "1" && "1"[..0] == "";
  }

  // ---------------------------------------------------------------------------
  // Rendering

  /** The `rel="nofollow"` rule: all links, external ones only, or internal ones only. */
  predicate AddsNoFollow(noFollow: Value, external: bool) {
    noFollow == Text("all") || (external && noFollow == Text("external")) || (!external && noFollow == Text("internal"))
  }

  /**
   * The `a` element `render` builds for link `inline` once it has decided
   * whether the link is `external`: `href` is the URL; `target` and `rel` are
   * set by the new-window and no-follow rules and otherwise keep the link's own
   * value; a present title is escaped; every other attribute is kept.
   */
  ghost predicate RendersLink(inline: Inline, settings: LinkSettings, env: Environment, external: bool, e: HtmlElement)
    requires inline.Link?
  {
    var a := e.attributes;
    && e.tag == "a"
    && e.contents == env.renderInlines(inline.children)
    && "href" in a && a["href"] == inline.url
    && (Truthy(settings.externalNewWindow) && external ==> "target" in a && a["target"] == "_blank")
    && (!(Truthy(settings.externalNewWindow) && external) ==>
          ("target" in a <==> "target" in inline.attributes)
          && ("target" in a ==> a["target"] == inline.attributes["target"]))
    && (AddsNoFollow(settings.noFollow, external) ==> "rel" in a && a["rel"] == "nofollow")
    && (!AddsNoFollow(settings.noFollow, external) ==>
          ("rel" in a <==> "rel" in inline.attributes)
          && ("rel" in a ==> a["rel"] == inline.attributes["rel"]))
    && (inline.title.Some? ==> "title" in a && a["title"] == HtmlEscape.Escape(inline.title.value))
    && (inline.title.None? ==>
          ("title" in a <==> "title" in inline.attributes)
          && ("title" in a ==> a["title"] == inline.attributes["title"]))
    && a.Keys <= inline.attributes.Keys + {"href", "target", "rel", "title"}
    && (forall k :: k in inline.attributes && k !in {"href", "target", "rel", "title"} ==>
          k in a && a[k] == inline.attributes[k])
  }

  /** The body of `render`, given the external decision for the link. */
  function RenderDecided(inline: Inline, settings: LinkSettings, env: Environment, external: bool)
    : (r: Result<HtmlElement, RenderError>)
    ensures r.Failure? <==> inline.OtherInline?
    ensures inline.OtherInline? ==> r.error == InvalidArgument("Incompatible inline type: " + inline.className)
    ensures r.Success? ==> RendersLink(inline, settings, env, external, r.value)
  {
    match inline
    case OtherInline(className) => Failure(InvalidArgument("Incompatible inline type: " + className))
    case Link(url, attributes, title, children) =>
      var withHref := attributes["href" := url];
      var withTarget := if Truthy(settings.externalNewWindow) && external then withHref["target" := "_blank"] else withHref;
      var withRel := if AddsNoFollow(settings.noFollow, external) then withTarget["rel" := "nofollow"] else withTarget;
      var withTitle := if title.Some? then withRel["title" := HtmlEscape.Escape(title.value)] else withRel;
      Success(HtmlElement("a", withTitle, env.renderInlines(children)))
  }

  /**
   * `render` with the corrected external test: a link becomes an `a` element
   * around its rendered children; any other inline is rejected.
   */
  function Render(inline: Inline, settings: LinkSettings, env: Environment): (r: Result<HtmlElement, RenderError>)
    ensures r.Failure? <==> inline.OtherInline?
    ensures inline.OtherInline? ==> r.error == InvalidArgument("Incompatible inline type: " + inline.className)
    ensures r.Success? ==> RendersLink(inline, settings, env, IsExternalUrl(inline.url, settings, env), r.value)
  {
    var external := inline.Link? && IsExternalUrl(inline.url, settings, env);
    RenderDecided(inline, settings, env, external)
  }

  /** `render` as the code is written, deciding "external" over the loosely built whitelist. */
  function RenderAsWritten(inline: Inline, settings: LinkSettings, env: Environment): (r: Result<HtmlElement, RenderError>)
    ensures r.Failure? <==> inline.OtherInline?
    ensures inline.OtherInline? ==> r.error == InvalidArgument("Incompatible inline type: " + inline.className)
    ensures r.Success? ==> RendersLink(inline, settings, env, IsExternalUrlAsWritten(inline.url, settings, env), r.value)
  {
    var external := inline.Link? && IsExternalUrlAsWritten(inline.url, settings, env);
    RenderDecided(inline, settings, env, external)
  }

  /**
   * On the whitelist `010` with base host `10` and new windows on, the code as
   * written opens a link to the site's own host in a new window and marks it
   * nofollow; the corrected rendering leaves it alone.
   */
  lemma SiteLinkMarkedExternalAsWritten()
    ensures var env := Environment(u => if u == "" then None else Some(u), "10", _ => "");
      var settings := LinkSettings(Flag(true), "010", Text("external"));
      var link := Link("10", map[], None, []);
      var a := RenderAsWritten(link, settings, env).value.attributes;
      var b := Render(link, settings, env).value.attributes;
      && "target" in a && a["target"] == "_blank" && "rel" in a && a["rel"] == "nofollow"
      && "target" !in b && "rel" !in b
  {
    BaseHostExternalAsWritten();
  }

  /**
   * The rendered title is safe inside an attribute value and loses nothing:
   * it holds no `<`, `>` or quote, and decoding its entities gives the link's title.
   */
  lemma RenderedTitleRoundTrip(inline: Inline, settings: LinkSettings, env: Environment)
    requires inline.Link? && inline.title.Some?
    ensures var a := Render(inline, settings, env).value.attributes;
      && '<' !in a["title"] && '>' !in a["title"] && '"' !in a["title"] && '\'' !in a["title"]
      && HtmlEscape.Unescape(a["title"]) == inline.title.value
  {
    HtmlEscape.EscapeRoundTrip(inline.title.value);
  }

  /** With the default settings, an external link opens in a new window and is marked nofollow. */
  lemma DefaultsMarkExternalLinks(inline: Inline, requestHost: string, env: Environment)
    requires inline.Link? && IsExternalUrl(inline.url, DefaultSettings(requestHost), env)
    ensures var a := Render(inline, DefaultSettings(requestHost), env).value.attributes;
      a["target"] == "_blank" && a["rel"] == "nofollow"
  {
  }

  /** With the default settings, a link to the request host keeps its own target and rel. */
  lemma DefaultsLeaveRequestHostLinks(inline: Inline, requestHost: string, env: Environment)
    requires inline.Link? && env.hostOf(inline.url) == Some(requestHost) && HostLine(requestHost)
    requires "target" !in inline.attributes && "rel" !in inline.attributes
    ensures var a := Render(inline, DefaultSettings(requestHost), env).value.attributes;
      "target" !in a && "rel" !in a
  {
    assert requestHost in SplitLines(DefaultSettings(requestHost).internalHostWhitelist);
  }

  /** An empty no-follow setting never adds `rel`, for internal and external links alike. */
  lemma EmptyNoFollowNeverAddsRel(inline: Inline, settings: LinkSettings, env: Environment)
    requires inline.Link? && settings.noFollow == Text("") && "rel" !in inline.attributes
    ensures "rel" !in Render(inline, settings, env).value.attributes
  {
  }
}

=== FILE: php_values.dfy ===
/** PHP values as they appear in configuration arrays, settings and guide data. */
module PhpValues {

  /** A PHP value. Lists and dictionaries are both PHP arrays; floats are not modelled. */
  datatype Value =
    | Null
    | Flag(b: bool)
    | Int(i: int)
    | Text(s: string)
    | List(items: seq<Value>)
    | Dict(entries: map<string, Value>)

  /** The two strings PHP converts to FALSE: the empty string and "0". */
  predicate FalsyString(s: string) {
    s == "" || s == "0"
  }

  /** PHP's conversion of a value to boolean, as used by `if`, `?:` and `empty()`. */
  predicate Truthy(v: Value) {
    match v
    case Null => false
    case Flag(b) => b
    case Int(i) => i != 0
    case Text(s) => !FalsyString(s)
    case List(items) => |items| > 0
    case Dict(entries) => |entries| > 0
  }
}

=== FILE: sequences.dfy ===
/** Order-preserving selection from a sequence, as a PHP `foreach` with a `continue` does. */
module Sequences {

  /** The elements of `s` that satisfy `p`, in their original order. */
  function Filter<T(!new)>(s: seq<T>, p: T -> bool): (r: seq<T>)
    ensures |r| <= |s|
    ensures forall x :: x in r <==> x in s && p(x)
  {
    if |s| == 0 then []
    else
      var init := Filter(s[..|s| - 1], p);
      assert s == s[..|s| - 1] + [s[|s| - 1]];
      if p(s[|s| - 1]) then init + [s[|s| - 1]] else init
  }

  /** Filtering twice by the same predicate changes nothing. */
  lemma {:induction false} FilterIdempotent<T(!new)>(s: seq<T>, p: T -> bool)
    ensures Filter(Filter(s, p), p) == Filter(s, p)
    decreases |s|
  {
    if |s| > 0 {
      var init := s[..|s| - 1];
      var last := s[|s| - 1];
      FilterIdempotent(init, p);
      if p(last) {
        var f := Filter(init, p);
        assert (f + [last])[..|f + [last]| - 1] == f;
      }
    }
  }

  /** Filtering keeps a sequence whose elements all pass. */
  lemma {:induction false} FilterKeepsAll<T(!new)>(s: seq<T>, p: T -> bool)
    requires forall k :: 0 <= k < |s| ==> p(s[k])
    ensures Filter(s, p) == s
    decreases |s|
  {
    if |s| > 0 {
      FilterKeepsAll(s[..|s| - 1], p);
      assert s[..|s| - 1] + [s[|s| - 1]] == s;
    }
  }

  /** Extending the scanned prefix by one element appends it to the selection exactly when it satisfies `p`. */
  lemma FilterStep<T(!new)>(s: seq<T>, p: T -> bool, i: nat)
    requires i < |s|
    ensures Filter(s[..i + 1], p) == Filter(s[..i], p) + (if p(s[i]) then [s[i]] else [])
  {
    assert s[..i + 1][..i] == s[..i];
  }
}

=== FILE: strings.dfy ===
/** Searching for a pattern inside a string, as `strpos` and `explode` do. */
module Strings {
  import opened Wrappers

  /** `pat` occurs in `s` starting at index `i`. */
  predicate OccursAt(s: string, pat: string, i: nat) {
    i + |pat| <= |s| && s[i..i + |pat|] == pat
  }

  /** The first index at or after `from` where `pat` occurs in `s`. */
  function FindFrom(s: string, pat: string, from: nat): (r: Option<nat>)
    ensures r.Some? ==> from <= r.value && OccursAt(s, pat, r.value)
    ensures r.Some? ==> forall j: nat :: from <= j < r.value ==> !OccursAt(s, pat, j)
    ensures r.None? ==> forall j: nat :: from <= j ==> !OccursAt(s, pat, j)
    decreases |s| - from
  {
    if |s| < from + |pat| then None
    else if OccursAt(s, pat, from) then Some(from)
    else FindFrom(s, pat, from + 1)
  }

  /** The first index where `pat` occurs in `s` (`strpos`), or None when it does not occur. */
  function FindFirst(s: string, pat: string): (r: Option<nat>)
    ensures r.Some? ==> OccursAt(s, pat, r.value)
    ensures r.Some? ==> forall j: nat :: j < r.value ==> !OccursAt(s, pat, j)
    ensures r.None? <==> forall j: nat :: !OccursAt(s, pat, j)
  {
    FindFrom(s, pat, 0)
  }
}

=== FILE: trusted_callback.dfy ===
/**
 * The trusted-callback gate `doTrustedCallback`: resolves a callback to a
 * target and method, decides whether it is trusted, and under an untrusted
 * verdict either raises or emits a notice and invokes anyway.
 *
 * Class relationships (`is_subclass_of`) and each class's `trustedCallbacks()`
 * list are declared data in a class registry; the invocation itself
 * (`call_user_func_array`) is a parameter.
 */
module TrustedCallback {
  import opened Wrappers
  import opened PhpValues
  import opened Strings

  /** The fully qualified name of the back-compatibility trusted-callback interface. */
  const TrustedCallbackInterface: string := "Drupal\\markdown\\BcSupport\\TrustedCallbackInterface"

  /**
   * What the registry knows about a class: every class and interface it is a
   * proper subclass of, and the method names its `trustedCallbacks()` returns.
   */
  datatype ClassInfo = ClassInfo(supertypes: set<string>, trustedCallbacks: seq<string>)

  type Registry = map<string, ClassInfo>

  /** The first element of a method callback: an object (named by its class) or a class name. */
  datatype Target = Instance(cls: string) | ClassName(name: string)

  /** The callable shapes `doTrustedCallback` distinguishes. */
  datatype Callback =
    | ArrayCallback(target: Target, methodName: string)
    | StringCallback(name: string)
    | Closure
    | InvokableObject(cls: string)

  /** The `$error_type` argument; `OtherErrorType` is any value the interface does not name. */
  datatype ErrorType =
    | ThrowException
    | TriggerDeprecation
    | TriggerSilencedDeprecation
    | TriggerWarning
    | OtherErrorType(name: string)

  /** A notice raised through `trigger_error` before the callback still runs. */
  datatype Notice = SilencedDeprecation(message: string) | Warning(message: string)

  /** The callback ran (after at most one notice) and returned `value`, or UntrustedCallbackException was thrown. */
  datatype Outcome = Invoked(notice: Option<Notice>, value: Value) | Thrown(message: string)

  /**
   * The callback after classification: a method callback has a target and a
   * method name; anything else keeps no method name.
   */
  datatype Resolved = MethodCallback(target: Target, methodName: string) | NoMethod

  /**
   * Classification: an array callback is a target/method pair; a string with
   * `::` is split at its first `::` into a class name and a method name.
   */
  function Resolve(callback: Callback): (r: Resolved)
    ensures callback.ArrayCallback? ==> r == MethodCallback(callback.target, callback.methodName)
    ensures callback.StringCallback? && r.MethodCallback? ==>
              r.target.ClassName? && callback.name == r.target.name + "::" + r.methodName
              && forall j: nat :: j < |r.target.name| ==> !OccursAt(callback.name, "::", j)
    ensures callback.StringCallback? ==> (r.NoMethod? <==> forall j: nat :: !OccursAt(callback.name, "::", j))
    ensures callback.Closure? || callback.InvokableObject? ==> r.NoMethod?
  {
    match callback
    case ArrayCallback(target, methodName) => MethodCallback(target, methodName)
    case StringCallback(name) =>
      (match FindFirst(name, "::")
       case Some(i) =>
         assert name == name[..i] + "::" + name[i + 2..];
         MethodCallback(ClassName(name[..i]), name[i + 2..])
       case None => NoMethod)
    case _ => NoMethod
  }

  /** The class a target names: an object's own class, or the class name itself. */
  function ClassOf(target: Target): string {
    match target
    case Instance(cls) => cls
    case ClassName(name) => name
  }

  /** `is_subclass_of(target, iface)`: the class is known and has `iface` among its proper supertypes. */
  predicate SubclassOf(classes: Registry, target: Target, iface: string) {
    ClassOf(target) in classes && iface in classes[ClassOf(target)].supertypes
  }

  /** The method is strictly listed by the target class's `trustedCallbacks()`. */
  predicate ListsMethod(classes: Registry, target: Target, methodName: string)
    requires ClassOf(target) in classes
  {
    methodName in classes[ClassOf(target)].trustedCallbacks
  }

  /** A usable extra trusted interface was passed: given and not a falsy string. */
  predicate HasExtraInterface(extra: Option<string>) {
    extra.Some? && !FalsyString(extra.value)
  }

  /**
   * The trust verdict: a closure is trusted; a method callback is trusted when
   * its target is a subclass of the extra interface (any method), or else when
   * it implements the trusted-callback interface and lists the method.
   */
  function IsTrusted(classes: Registry, callback: Callback, extra: Option<string>): (r: bool)
    ensures callback.Closure? ==> r
    ensures callback.InvokableObject? ==> !r
    ensures Resolve(callback).MethodCallback? ==>
      var t := Resolve(callback).target;
      var m := Resolve(callback).methodName;
      (r <==> (HasExtraInterface(extra) && SubclassOf(classes, t, extra.value))
              || (SubclassOf(classes, t, TrustedCallbackInterface) && ListsMethod(classes, t, m)))
    ensures callback.StringCallback? && Resolve(callback).NoMethod? ==> !r
  {
    match Resolve(callback)
    case MethodCallback(target, methodName) =>
      if HasExtraInterface(extra) && SubclassOf(classes, target, extra.value) then true
      else if SubclassOf(classes, target, TrustedCallbackInterface) then methodName in classes[ClassOf(target)].trustedCallbacks
      else false
    case NoMethod => callback.Closure?
  }

  /** The text that replaces `%s` in the untrusted message: the class or string, plus `::method` when resolved. */
  function Description(callback: Callback): (r: string)
    ensures Resolve(callback).MethodCallback? ==>
              r == ClassOf(Resolve(callback).target) + "::" + Resolve(callback).methodName
    ensures callback.StringCallback? && Resolve(callback).NoMethod? ==> r == callback.name
    ensures callback.InvokableObject? ==> r == callback.cls
  {
    match Resolve(callback)
    case MethodCallback(target, methodName) => ClassOf(target) + "::" + methodName
    case NoMethod =>
      match callback
      case StringCallback(name) => name
      case InvokableObject(cls) => cls
      case _ => "Closure"
  }

  /** `sprintf(message, d)` for its first `%s` directive: `d` is put in its place. */
  function Substitute(message: string, d: string): (r: string)
    ensures (forall j: nat :: !OccursAt(message, "%s", j)) ==> r == message
  {
    match FindFirst(message, "%s")
    case Some(i) => message[..i] + d + message[i + 2..]
    case None => message
  }

  /** A message with one `%s` reads back with the description in its place. */
  lemma SubstituteFillsPlaceholder(p: string, q: string, d: string)
    requires '%' !in p
    ensures Substitute(p + "%s" + q, d) == p + d + q
  {
    var m := p + "%s" + q;
    assert OccursAt(m, "%s", |p|) by {
      assert m[|p|..|p| + 2] == "%s";
    }
    forall j: nat | j < |p|
      ensures !OccursAt(m, "%s", j)
    {
      assert m[j] == p[j];
      if j + 2 <= |m| {
        assert m[j..j + 2][0] == m[j];
      }
    }
    assert m[..|p|] == p && m[|p| + 2..] == q;
  }

  /**
   * `doTrustedCallback`: a trusted callback is invoked with no notice; an
   * untrusted one is invoked after a silenced deprecation or a warning when the
   * error type asks for one, and otherwise raises without being invoked.
   * `invoke(callback, args)` is what calling the callback returns.
   */
  function DoTrustedCallback(
    classes: Registry, callback: Callback, args: seq<Value>, message: string,
    errorType: ErrorType, extra: Option<string>, invoke: (Callback, seq<Value>) -> Value)
    : (r: Outcome)
    ensures IsTrusted(classes, callback, extra) ==> r == Invoked(None, invoke(callback, args))
    ensures !IsTrusted(classes, callback, extra) ==>
      var m := Substitute(message, Description(callback));
      && (errorType == TriggerSilencedDeprecation ==> r == Invoked(Some(SilencedDeprecation(m)), invoke(callback, args)))
      && (errorType == TriggerWarning ==> r == Invoked(Some(Warning(m)), invoke(callback, args)))
      && (errorType != TriggerSilencedDeprecation && errorType != TriggerWarning ==> r == Thrown(m))
  {
    if IsTrusted(classes, callback, extra) then Invoked(None, invoke(callback, args))
    else
      var m := Substitute(message, Description(callback));
      match errorType
      case TriggerSilencedDeprecation => Invoked(Some(SilencedDeprecation(m)), invoke(callback, args))
      case TriggerWarning => Invoked(Some(Warning(m)), invoke(callback, args))
      case _ => Thrown(m)
  }

  /** The callback runs without any notice exactly when it is trusted. */
  lemma SilentInvocationIffTrusted(
    classes: Registry, callback: Callback, args: seq<Value>, message: string,
    errorType: ErrorType, extra: Option<string>, invoke: (Callback, seq<Value>) -> Value)
    ensures DoTrustedCallback(classes, callback, args, message, errorType, extra, invoke).Invoked?
              && DoTrustedCallback(classes, callback, args, message, errorType, extra, invoke).notice.None?
            <==> IsTrusted(classes, callback, extra)
  {
  }

  /** A closure runs under every error type and returns what the closure returns. */
  lemma ClosureAlwaysInvoked(
    classes: Registry, args: seq<Value>, message: string,
    errorType: ErrorType, extra: Option<string>, invoke: (Callback, seq<Value>) -> Value)
    ensures DoTrustedCallback(classes, Closure, args, message, errorType, extra, invoke) == Invoked(None, invoke(Closure, args))
  {
  }

  /** Under the default error type an untrusted callback is never invoked. */
  lemma ThrowNeverInvokesUntrusted(
    classes: Registry, callback: Callback, args: seq<Value>, message: string,
    extra: Option<string>, invoke: (Callback, seq<Value>) -> Value)
    requires !IsTrusted(classes, callback, extra)
    ensures DoTrustedCallback(classes, callback, args, message, ThrowException, extra, invoke).Thrown?
  {
  }

  /**
   * TRIGGER_DEPRECATION is documented as a choice but not handled: an
   * untrusted callback under it raises like THROW_EXCEPTION.
   */
  lemma DeprecationTypeThrows(
    classes: Registry, callback: Callback, args: seq<Value>, message: string,
    extra: Option<string>, invoke: (Callback, seq<Value>) -> Value)
    requires !IsTrusted(classes, callback, extra)
    ensures DoTrustedCallback(classes, callback, args, message, TriggerDeprecation, extra, invoke)
         == DoTrustedCallback(classes, callback, args, message, ThrowException, extra, invoke)
  {
  }

  /** `Class::method` strings split back into the class and the method, when the class name has no colon. */
  lemma {:induction false} ResolveSplitsAtFirstSeparator(cls: string, methodName: string)
    requires ':' !in cls
    ensures Resolve(StringCallback(cls + "::" + methodName)) == MethodCallback(ClassName(cls), methodName)
  {
    var s := cls + "::" + methodName;
    assert OccursAt(s, "::", |cls|) by {
      assert s[|cls|..|cls| + 2] == "::";
    }
    forall j: nat | j < |cls|
      ensures !OccursAt(s, "::", j)
    {
      assert s[j] == cls[j];
      if j + 2 <= |s| {
        assert s[j..j + 2][0] == s[j];
      }
    }
    assert s[..|cls|] == cls && s[|cls| + 2..] == methodName;
  }

  /**
   * A `Class::method` string and the equivalent class-name array callback get
   * the same verdict.
   */
  lemma StringAndArrayAgree(classes: Registry, cls: string, methodName: string, extra: Option<string>)
    requires ':' !in cls
    ensures IsTrusted(classes, StringCallback(cls + "::" + methodName), extra)
        == IsTrusted(classes, ArrayCallback(ClassName(cls), methodName), extra)
  {
    ResolveSplitsAtFirstSeparator(cls, methodName);
  }

  /** The extra interface trusts every method of a subclass, listed or not. */
  lemma ExtraInterfaceTrustsAnyMethod(classes: Registry, target: Target, methodName: string, iface: string)
    requires iface != "" && iface != "0" && SubclassOf(classes, target, iface)
    ensures IsTrusted(classes, ArrayCallback(target, methodName), Some(iface))
  {
  }

  /** Without the extra interface, a method absent from the trusted list is untrusted. */
  lemma UnlistedMethodIsUntrusted(classes: Registry, target: Target, methodName: string)
    requires ClassOf(target) in classes && methodName !in classes[ClassOf(target)].trustedCallbacks
    ensures !IsTrusted(classes, ArrayCallback(target, methodName), None)
  {
  }
}

=== FILE: wrappers.dfy ===
/** Failure-compatible result types shared by every module of the model. */
module Wrappers {

  /** A value that may be absent: PHP's NULL, or a key that is not set. */
  datatype Option<+T> = None | Some(value: T) {

    /** The carried value, or `default` when there is none. */
    function GetOr(default: T): T {
      match this
      case Some(v) => v
      case None => default
    }
  }

  /** Either a value or the exception an operation raises instead. */
  datatype Result<+T, +E> = Success(value: T) | Failure(error: E) {

    predicate IsFailure() {
      Failure?
    }

    function PropagateFailure<U>(): Result<U, E>
      requires Failure?
    {
      Failure(error)
    }

    function Extract(): T
      requires Success?
    {
      value
    }
  }
}
